=== FILE: README.md ===
# Latynka transliteration engine, modelled in Dafny

This project models the substitution engine of a Ukrainian Cyrillic→Latin
converter (`converter/substitution.py`), and proves properties about it.
The engine has three parts:

- **The unambiguous table.** `UNAMBIGUOUS_CHAR_TAB` gives 44 letters exactly
  one Latin rendering each. It is applied once to the whole text with
  `str.translate`.
- **The ambiguity groups.** `AMBIGUOUS_CHAR_TAB` gives seven groups: doubles,
  sibilants, v-or-w, small vowels, capital vowels, y-or-i and softener. Each
  maps a key to a tuple of candidate renderings.
- **The `substitute` decorator.** It turns a group's rule method (the
  "context function") into a loop. While the key is still in the buffer, the
  method picks a candidate index from the current buffer. The loop then
  replaces the leftmost occurrence with that candidate and repeats.

The modules follow that structure:

| module | file | what it holds |
|---|---|---|
| `Strings` | `strings.dfy` | occurrences, `str.index`, one-shot `str.replace(k, r, 1)`, a one-scan replace-all reference, character classes (Cyrillic, cased letters, `isupper`, `isalpha`) |
| `Unambiguous` | `unambiguous.dfy` | `UNAMBIGUOUS_CHAR_TAB` and `str.translate` |
| `Rules` | `rules.dfy` | `AMBIGUOUS_CHAR_TAB` as one entry list per group, in insertion order; the seven context functions; the as-written and corrected `_v_or_w` |
| `Substitute` | `substitute.dfy` | the `substitute` loop for one key, and for one group |
| `Resolvers` | `resolvers.dfy` | what each group does, stated against independent definitions: a one-scan replace-all, a character filter, and the leftmost occurrence by its definition |
| `Romanizer` | `romanizer.dfy` | the assumed whole conversion: translate, then the seven groups in table order |
| `WorkedTranslation` | `worked_translation.dfy` | the unambiguous table on five words, through a character-by-character reference for `str.translate` |
| `WorkedGroups` | `worked_groups.dfy` | general conditions under which a group keeps the buffer or fires once, and each group's result on the five words |
| `Scenarios` | `scenarios.dfy` | the five words taken through the whole conversion |

`_doubles` and `_softener` always choose candidate 0. For them the loop
equals Python's `str.replace(key, candidate)` (`Resolvers.FixedChoiceIsReplaceAll`).
The softener removes every `ь` and `Ь` (`Resolvers.SoftenerDropsSoftSigns`).

The sibilants decide on the case of the whole buffer. That case is kept by
every replacement, so this group is also a replace-all
(`Resolvers.SibilantsIsReplaceAll`).

The other four groups depend on position. Each has a step lemma. It states
which candidate replaces the leftmost occurrence, in terms of that
occurrence's neighbours. The engine runs `_v_or_w` as written, with its
buffer-end test (see Findings); the corrected rule is modelled beside it as
`Rules.VOrWChoice`.

The orchestrating `Romanizer` class is not part of this model, and
`converter/substitution.py` does not say in which order it runs the two parts.
The comments at lines 21-22 and 33-36 describe each part, not their order. The
model assumes translate first, then the groups in table order (see Left out
for the evidence each way).

Under that assumption, the following results hold:

- No letter of the Ukrainian alphabet survives the conversion.
- A text holding no key of either table comes back unchanged. This covers a
  Cyrillic letter foreign to Ukrainian, such as `ы`.
- Five words convert as follows: "мама" → "mama", "мальва" → "malva",
  "лев" → "lew", "йогурт" → "yohurt" and "жж" → "zhh".
- Eleven keys of the doubles group can never fire: `ьо`, `ЬО`, `ьк`, `ЬК`,
  `шг`, `ШГ`, `дж`, `ДЖ`, `Дж`, `дч`, `ДЧ`. Each contains a letter that the
  translate step has already replaced. This is an anomaly of the table:
  either these entries are dead, or the groups were meant to run before
  translate, against the assumed order.

## Model

| member | source | states |
|---|---|---|
| Unambiguous.TableIsLatinising | converter/substitution.py:23-28 | every key of the unambiguous table is a Cyrillic letter, and its rendering is non-empty and holds no Cyrillic character |
| Unambiguous.MapCharIsLatinising | converter/substitution.py:23-28 | the rendering of one character holds no table key; a Cyrillic character is in the rendering exactly when it is the character itself and not a key |
| Unambiguous.KeysAreMaketransKeys | converter/substitution.py:23-28 | the keys of the table are exactly the 44 characters of the dict passed to `maketrans`; the string it is called on is ignored by the static `str.maketrans` and lists the same 44 characters |
| Unambiguous.MapChar | converter/substitution.py:23-28 | the rendering of one character is never empty, and it is the character itself exactly when the character is not a key |
| Unambiguous.Translate | converter/substitution.py:21-28 | the translated text holds no table key; a text without keys is unchanged; a Cyrillic character is in the output exactly when it is in the input and is not a key |
| Unambiguous.TranslateConcat | converter/substitution.py:21-22 | translation works character by character: translating a concatenation concatenates the translations |
| Unambiguous.TranslateChar | converter/substitution.py:23-28 | a single key becomes its table rendering; any other single character is kept |
| Unambiguous.TranslateIdempotent | converter/substitution.py:21-28 | translating twice is translating once |
| Strings.FindFrom | converter/substitution.py:10 | the search from a position returns the first occurrence at or after it, or reports that none exists |
| Strings.Find | converter/substitution.py:10 | the search finds an index exactly when `key in text` holds, and that index is the leftmost occurrence |
| Strings.IndexOf | converter/substitution.py:102 | `word.index(char)` is the leftmost occurrence of the key |
| Strings.LeftmostIsUnique | converter/substitution.py:102 | two leftmost occurrences of a key are at the same position |
| Strings.IndexOfLeftmost | converter/substitution.py:111 | a leftmost occurrence at `i` means the key is present and `word.index` returns `i` |
| Strings.ContainsSingle | converter/substitution.py:10 | `key in text` for a one-character key holds exactly when that character is in the text |
| Strings.ReplaceFirst | converter/substitution.py:12 | `replace(key, rep, 1)` leaves a text without the key unchanged and otherwise splices `rep` over the leftmost occurrence |
| Strings.ReplaceFirstLatinises | converter/substitution.py:12 | replacing a Cyrillic key by a Cyrillic-free string lowers the Cyrillic count by the key's length and adds no Cyrillic character |
| Strings.AbsentStaysAbsent | converter/substitution.py:12 | splicing a Cyrillic-free string in place of any piece cannot create an occurrence of an all-Cyrillic key; with an empty splice this needs the key to be one letter |
| Strings.NoOccurrenceAcross | converter/substitution.py:12 | no all-Cyrillic key can straddle a Cyrillic-free splice |
| Strings.OccurrencesAfterSeparator | converter/substitution.py:10-12 | after a key-free prefix and a Cyrillic-free splice, the key occurs in the text exactly when it occurs in the rest, and the leftmost occurrences correspond |
| Strings.NoOccurrenceBeforeLeftmost | converter/substitution.py:10-12 | the text before a leftmost occurrence holds no occurrence of the key |
| Strings.LeftmostInTail | converter/substitution.py:10-12 | a leftmost occurrence past the first character is the leftmost occurrence of the tail, one position earlier |
| Strings.ReplaceAllAtLeftmost | converter/substitution.py:10-12 | the one-scan replace-all copies the text before the leftmost occurrence, rewrites that occurrence, and continues after it |
| Strings.ReplaceAllWithoutOccurrence | converter/substitution.py:10 | replace-all leaves a text without the key unchanged |
| Strings.ReplaceAllAfterSeparator | converter/substitution.py:10-12 | after a key-free prefix and a Cyrillic-free splice, replace-all acts on the rest alone |
| Strings.ReplaceAllAfterFirst | converter/substitution.py:10-12 | replacing the leftmost occurrence and then all occurrences equals replacing all: one loop iteration is a prefix of the one-scan rewrite |
| Strings.LettersOnly | converter/substitution.py:120 | the projection keeps only letters, and keeps every letter of the buffer |
| Strings.LettersOnlyConcat | converter/substitution.py:120 | the projection works character by character: the projection of a concatenation is the concatenation of the projections, so order and multiplicity are kept |
| Strings.LettersOnlyChar | converter/substitution.py:120 | one character is kept exactly when it is a letter; with `Strings.LettersOnlyConcat` this determines the projection |
| Strings.LetterKeySurvivesProjection | converter/substitution.py:120-121 | a one-letter key present in the buffer is present in its letters, so `word.index` on the projection cannot fail |
| Strings.UpperTextByMembership | converter/substitution.py:97 | `isupper` holds exactly when the text has an upper-case letter and no lower-case letter |
| Rules.EntryShape | converter/substitution.py:37-86 | every entry of every group: an all-Cyrillic key, Cyrillic-free candidates, two-letter keys for doubles and one letter otherwise, non-empty candidates except the softener's, and the number of candidates each context function can ask for |
| Rules.TableKeysAreDistinct | converter/substitution.py:37-86 | within each group no key appears twice, as in a dict |
| Rules.DoublesShape | converter/substitution.py:38-57 | every doubles entry has a two-letter key and one non-empty candidate |
| Rules.SibilantsShape | converter/substitution.py:59-66 | small sibilants have one candidate, which has a small letter; capital sibilants have two, the second all capitals |
| Rules.LetterGroupShape | converter/substitution.py:68-82 | the v-or-w and small-vowel keys have two candidates; the capital-vowel and y-or-i keys have three; all are one letter and non-empty |
| Rules.SoftenerShape | converter/substitution.py:84-85 | the softener's keys are the two soft signs, each with the single empty candidate |
| Rules.Choose | converter/substitution.py:11-12 | the option every context function returns indexes into the key's candidate tuple, so the lookup at line 12 never fails |
| Rules.SibilantsChoice | converter/substitution.py:96-98 | the option is 0 or 1; what it decides is stated by `Resolvers.SibilantIndex` |
| Rules.VOrWChoiceAsWritten | converter/substitution.py:101-107 | the option is 0 or 1, and the lookahead `word[nxt]` is in range; what it decides is stated by `Rules.VOrWAsWrittenDecides` |
| Rules.VOrWChoice | converter/substitution.py:101-107 | the corrected rule's option is 0 or 1, and its lookahead is in range; what it decides is stated by `Rules.VOrWChoiceDecides` |
| Rules.VowelsSmallChoice | converter/substitution.py:110-116 | the option is 0 or 1, and the lookbehind is read only past position 0; what it decides is stated by `Resolvers.VowelsSmallStep` |
| Rules.VowelsCapitalChoice | converter/substitution.py:119-128 | the option is 0, 1 or 2, and the lookbehind is read only past position 0; what it decides is stated by `Resolvers.VowelsCapitalChoiceAt` |
| Rules.YOrIChoice | converter/substitution.py:131-139 | the option is 0, 1 or 2, and the lookbehind is read only past position 0; what it decides is stated by `Resolvers.YOrIStep` |
| Rules.SmallKeyIsNotUpperText | converter/substitution.py:97 | a buffer holding a small letter is never upper-case, so a small sibilant always takes candidate 0 |
| Rules.VOrWAsWrittenDecides | converter/substitution.py:101-107 | `_v_or_w` as written picks `w` when the buffer ends with the key, wherever the leftmost occurrence is, or when the character after the leftmost occurrence is not vowel-like |
| Rules.VOrWAsWrittenMisreadsLviv | converter/substitution.py:102-104 | on the translated "Львів", the first `в` is followed by a vowel; the as-written rule still picks `w`, while the corrected rule picks `v` |
| Rules.VOrWChoiceDecides | converter/substitution.py:101-107 | the corrected rule picks `w` exactly when the leftmost occurrence ends the buffer or the next character is not vowel-like |
| Rules.VOrWReadingsAgreeOnLastOccurrence | converter/substitution.py:102-104 | the as-written and corrected rules agree whenever the leftmost occurrence of the key is also its last |
| Substitute.Step | converter/substitution.py:11-12 | one loop iteration removes exactly the key's Cyrillic characters and brings in no Cyrillic character; the loop therefore terminates |
| Substitute.StepAt | converter/substitution.py:11-12 | one iteration splices the chosen candidate over the leftmost occurrence and keeps the rest |
| Substitute.StepSplices | converter/substitution.py:11-12 | a step splices one candidate over the leftmost occurrence of the key and keeps the rest; that candidate is Cyrillic-free, and it is empty only for the softener |
| Substitute.StepKeepsAbsent | converter/substitution.py:12 | an iteration never creates an occurrence of an absent all-Cyrillic key; for the erasing softener this holds for one-letter keys |
| Substitute.ApplyKey | converter/substitution.py:4-14 | the decorated method returns a buffer without the key; it returns the buffer unchanged when the key is absent; it adds no Cyrillic character and creates no absent protected key |
| Substitute.KeysProtected | converter/substitution.py:37-86 | every key of a group is protected for that group: all-Cyrillic, and a single letter in the erasing softener group |
| Substitute.ApplyEntries | converter/substitution.py:33-36 | running the keys of a group in order leaves none of them in the buffer; a key already absent stays absent; nothing changes when none is present |
| Substitute.ApplyRule | converter/substitution.py:33-36 | after a whole group, none of its keys occurs; a buffer without its keys is unchanged; no Cyrillic character appears |
| Resolvers.FixedChoiceIsReplaceAll | converter/substitution.py:90-93 | for `_doubles` and `_softener`, which always return 0, the loop equals one left-to-right `str.replace(key, candidate)` |
| Resolvers.ErasingScanIsWithout | converter/substitution.py:84-85 | replacing a character by the empty string everywhere is the filter that drops it |
| Resolvers.WithoutBothSoftSigns | converter/substitution.py:84-85 | dropping `ь`, then `Ь`, is dropping both soft signs in one filter |
| Resolvers.SoftenerDropsSoftSigns | converter/substitution.py:141-143 | the softener group removes every soft sign and keeps every other character in order |
| Resolvers.SmallSibilantChoosesFirst | converter/substitution.py:96-98 | a small sibilant always takes its only candidate |
| Resolvers.SibilantIndex | converter/substitution.py:96-98 | `_sibilants` returns 1 exactly when the whole buffer is upper-case, and 0 otherwise |
| Resolvers.SibilantChoice | converter/substitution.py:96-98 | `_sibilants` picks the all-capital rendering exactly when the whole buffer is upper-case and the key has one |
| Resolvers.SibilantCaseKept | converter/substitution.py:59-66 | swapping a sibilant for its chosen rendering keeps the buffer's `isupper` value |
| Resolvers.SibilantStep | converter/substitution.py:96-98 | one sibilant iteration is `replace(key, rendering, 1)` with the rendering the buffer's case selects, and it keeps the buffer's case |
| Resolvers.SibilantsIsReplaceAll | converter/substitution.py:96-98 | the sibilant loop is one replace-all with the rendering chosen from the case of the starting buffer |
| Resolvers.CapitalCheIsAlwaysJ | converter/substitution.py:63 | `Ч` becomes `J` whatever the case of the buffer, because both its candidates are `J` |
| Resolvers.VOrWStep | converter/substitution.py:101-107 | as written, the leftmost `в`/`В` becomes `w`/`W` when the buffer ends with the key or the character after the occurrence is not vowel-like, and `v`/`V` otherwise |
| Resolvers.VOrWStepOnLviv | converter/substitution.py:101-107 | on the buffer "Lьвiв" the engine, like the source, turns the first `в` into `w`, giving "Lьwiв" |
| Resolvers.VowelsSmallStep | converter/substitution.py:110-116 | the leftmost small iotated vowel gets the glide-free candidate unless it starts the buffer or follows `'` or `ь` |
| Resolvers.VowelsCapitalChoiceAt | converter/substitution.py:119-128 | `_vowels_capital` decides on the letters of the buffer; only `Ь` can precede as a softener, since an apostrophe is not a letter |
| Resolvers.VowelsCapitalStep | converter/substitution.py:119-128 | the leftmost capital iotated vowel is glide-free after a letter other than `Ь`; otherwise it is mixed-case for a lone letter or a buffer that is not all capitals, and all-capital otherwise |
| Resolvers.YOrIStep | converter/substitution.py:131-139 | the leftmost `й`/`Й` is `y` at the buffer start or after a line break, `i` after a Latin vowel, and `'y` otherwise |
| Romanizer.ResolveAmbiguity | converter/substitution.py:33-36 | after the groups run in order, no one-letter key of any group remains; no Cyrillic character appears; a buffer with none of the keys is unchanged |
| Romanizer.Romanize | converter/substitution.py:21-22 | every Cyrillic character of the output was in the input and is not a key of the unambiguous table |
| Romanizer.RomanizeLeavesNoUkrainianLetter | converter/substitution.py:21-86 | no character of the output is a letter of the 66-letter Ukrainian alphabet |
| Romanizer.RomanizeWithoutKeys | converter/substitution.py:21-36 | a text that holds no key of the unambiguous table and no key of any group comes back unchanged |
| Romanizer.RomanizeKeepsForeignCyrillic | converter/substitution.py:23-86 | `ы`, a Cyrillic letter that is a key of neither table, comes back unchanged |
| Romanizer.CyrillicFreeHoldsNoKey | converter/substitution.py:23-86 | a text without Cyrillic characters holds no key of the unambiguous table and no key of any group |
| Romanizer.RomanizeKeepsCyrillicFree | converter/substitution.py:21-36 | as a special case of `Romanizer.RomanizeWithoutKeys`, a text without Cyrillic characters, the empty text included, comes back unchanged |
| Romanizer.NoLetterSurvives | converter/substitution.py:21-86 | a buffer with no unambiguous key, after all one-letter keys have been resolved, holds no Ukrainian letter |
| Romanizer.ResolverFindsKey | converter/substitution.py:59-85 | each ambiguous single letter is a key of the group that resolves it |
| Romanizer.AlphabetIsCovered | converter/substitution.py:23-85 | every letter of the alphabet is either an unambiguous key or a one-letter key of some group |
| Romanizer.ShadowedDoublesAreExactlyThese | converter/substitution.py:38-57 | a doubles key contains a letter of the unambiguous table exactly when it is one of the eleven shadowed keys |
| Romanizer.ShadowedKeyNeverOccurs | converter/substitution.py:21-22 | a shadowed doubles key cannot occur in a translated buffer |
| Romanizer.ApplyKeyKeepsNoTableKey | converter/substitution.py:4-14 | running any group's key never brings back a key of the unambiguous table |
| Romanizer.LiveDoubles | converter/substitution.py:38-57 | the doubles entries whose keys are not shadowed, and all of them |
| Romanizer.ShadowedDoublesNeverFire | converter/substitution.py:38-57 | on a translated buffer, running the doubles entries gives the same buffer as running only the live ones |
| Romanizer.RomanizeDoublesPass | converter/substitution.py:21-57 | in the assumed composition, the doubles group acts as its nine live keys alone |
| WorkedTranslation.MamaTranslated | converter/substitution.py:23-28 | the table alone renders "мама" as "mama" |
| WorkedTranslation.LevTranslated | converter/substitution.py:23-28 | the table renders "лев" as "leв": `в` is no key of the table and passes through |
| WorkedTranslation.MalvaTranslated | converter/substitution.py:23-28 | the table renders "мальва" as "malьвa": `ь` and `в` pass through |
| WorkedTranslation.YogurtTranslated | converter/substitution.py:23-28 | the table renders "йогурт" as "йohurt": `й` passes through |
| WorkedTranslation.ZhzhTranslated | converter/substitution.py:23-28 | the table leaves "жж" unchanged, since `ж` is no key of it |
| WorkedGroups.CyrillicFreeKeeps | converter/substitution.py:4-14 | any group leaves a text without Cyrillic characters unchanged, and none of its keys occurs there |
| WorkedGroups.KeyLettersCover | converter/substitution.py:59-85 | every key of the six one-letter groups is one letter, taken from that group's listed key letters |
| WorkedGroups.KeyDetermines | converter/substitution.py:37-86 | within a group a key determines its entry, as in a dict |
| WorkedGroups.LetterGroupKeeps | converter/substitution.py:10-13 | a one-letter group leaves a buffer holding none of its key letters unchanged |
| WorkedGroups.DoublesKeep | converter/substitution.py:38-57 | a buffer with no two adjacent Cyrillic characters passes the doubles group unchanged |
| WorkedGroups.PairNotKeyAt | converter/substitution.py:38-57 | a two-letter Cyrillic key cannot occur where either of the two characters is not Cyrillic |
| WorkedGroups.DoublesKeepBut | converter/substitution.py:38-57 | a buffer whose only adjacent Cyrillic pair is not a doubles key passes the doubles group unchanged |
| WorkedGroups.OnlyEntryFires | converter/substitution.py:33-36 | when only one entry's key is present and its loop leaves no key of the group behind, running the group's entries gives that loop's result |
| WorkedGroups.LetterFiresOnce | converter/substitution.py:10-13 | when a group's only key letter present is `c`, and one step on `c` leaves none of the group's letters, the whole group gives that one step's result |
| WorkedGroups.DoublesOnLev | converter/substitution.py:38-57 | the doubles group leaves "leв" unchanged |
| WorkedGroups.SibilantsOnLev | converter/substitution.py:59-66 | the sibilants group leaves "leв" unchanged |
| WorkedGroups.VOrWStepOnLev | converter/substitution.py:101-107 | in "leв" the `в` ends the buffer, so one step gives "lew" |
| WorkedGroups.VOrWOnLev | converter/substitution.py:101-107 | the v-or-w group turns "leв" into "lew" |
| WorkedGroups.DoublesOnZhzh | converter/substitution.py:44 | the doubles group turns "жж" into "zhh" |
| WorkedGroups.ZhzhReplaced | converter/substitution.py:90-93 | the fixed-choice loop on "жж" is one replace-all giving "zhh" |
| WorkedGroups.DoublesOnMalva | converter/substitution.py:38-57 | `ьв` is no doubles key, so the doubles group leaves "malьвa" unchanged |
| WorkedGroups.SoftVeIsNoDoublesKey | converter/substitution.py:38-57 | no doubles entry has the key `ьв` |
| WorkedGroups.SibilantsOnMalva | converter/substitution.py:59-66 | the sibilants group leaves "malьвa" unchanged |
| WorkedGroups.VOrWStepOnMalva | converter/substitution.py:101-107 | in "malьвa" the `в` is followed by the vowel `a`, so one step gives "malьva" |
| WorkedGroups.VOrWOnMalva | converter/substitution.py:101-107 | the v-or-w group turns "malьвa" into "malьva" |
| WorkedGroups.VowelsSmallOnMalva | converter/substitution.py:71-74 | the small-vowel group leaves "malьva" unchanged |
| WorkedGroups.VowelsCapitalOnMalva | converter/substitution.py:76-79 | the capital-vowel group leaves "malьva" unchanged |
| WorkedGroups.YOrIOnMalva | converter/substitution.py:81-82 | the y-or-i group leaves "malьva" unchanged |
| WorkedGroups.SoftenerOnMalva | converter/substitution.py:141-143 | the softener turns "malьva" into "malva" |
| WorkedGroups.DoublesOnYogurt | converter/substitution.py:38-57 | the doubles group leaves "йohurt" unchanged |
| WorkedGroups.SibilantsOnYogurt | converter/substitution.py:59-66 | the sibilants group leaves "йohurt" unchanged |
| WorkedGroups.VOrWOnYogurt | converter/substitution.py:68-69 | the v-or-w group leaves "йohurt" unchanged |
| WorkedGroups.VowelsSmallOnYogurt | converter/substitution.py:71-74 | the small-vowel group leaves "йohurt" unchanged |
| WorkedGroups.VowelsCapitalOnYogurt | converter/substitution.py:76-79 | the capital-vowel group leaves "йohurt" unchanged |
| WorkedGroups.YOrIStepOnYogurt | converter/substitution.py:131-139 | the `й` of "йohurt" starts the buffer, so one step gives "yohurt" |
| WorkedGroups.YOrIOnYogurt | converter/substitution.py:131-139 | the y-or-i group turns "йohurt" into "yohurt" |
| Scenarios.ResolveFirst | converter/substitution.py:33-36 | the groups run in sequence: the first group's result is the buffer the rest start from |
| Scenarios.ResolveTail | converter/substitution.py:33-36 | groups whose keys are all absent leave the buffer unchanged |
| Scenarios.LatinTail | converter/substitution.py:33-36 | a buffer of characters below U+0400 passes every group unchanged |
| Scenarios.RomanizeMama | converter/substitution.py:21-86 | "мама" converts to "mama" |
| Scenarios.RomanizeLev | converter/substitution.py:21-107 | "лев" converts to "lew": the final `в` ends the buffer |
| Scenarios.RomanizeZhzh | converter/substitution.py:21-93 | "жж" converts to "zhh" through the doubles group |
| Scenarios.RomanizeMalva | converter/substitution.py:21-143 | "мальва" converts to "malva": `в` before a vowel is `v` and the soft sign is dropped |
| Scenarios.RomanizeYogurt | converter/substitution.py:21-139 | "йогурт" converts to "yohurt": the word-initial `й` is `y` |

## Left out

- The `Romanizer` class, which runs translate and the groups, is not part of this model. `Romanizer.Romanize` assumes translate first, then the groups in the insertion order of `AMBIGUOUS_CHAR_TAB`. The source does not state this order: the comments at lines 21-22 and 33-36 describe each part, not which runs first. Every result about `Romanizer.Romanize` and the `Scenarios` depends on this assumption.
- Evidence for the assumed order: the rules read translated text. `_v_or_w` compares the next character with the Latin vowels `aeyoiu` (line 103), and `_y_or_i` compares the previous character with `aeiouy` only (line 135). On untranslated text the Cyrillic vowels `а`, `е`, `о`, `у`, `и`, `і` would never match.
- Evidence against it: eleven doubles keys (`ьо`, `ЬО`, `ьк`, `ЬК`, `шг`, `ШГ`, `дж`, `ДЖ`, `Дж`, `дч`, `ДЧ`, lines 38-57) each contain a letter of the unambiguous table. After translate they can never occur (`Romanizer.ShadowedDoublesNeverFire`). They could fire only if the groups ran before translate.
- `converter/views.py`, the forms, the templates and the web layer are not modelled. They only pass text in and out.
- The `substitute` decorator's dispatch by `func.__name__` and `*args` is not modelled. `Rules.Choose` binds each group to its context function directly.
- Unicode character classes are modelled only for part of Unicode. `isalpha`, `isupper` and the lower/upper classes cover ASCII letters, U+0400..U+045F, and U+0490/U+0491 (`Ґ`, `ґ`). Every other character counts as an uncased non-letter. "Cyrillic" for the termination measure is the block U+0400..U+04FF.
- The sibilant rule tests the case of the whole buffer (`args[1]`, line 97), not the case of the occurrence; the model does the same.
- The y-or-i rule's vowel set `aeiouyAEIOUY` (line 135) has no Cyrillic vowels; the model uses the same set.
- The capital-vowel rule follows the code. The projection at line 120 drops apostrophes, so the apostrophe test at line 122 can never succeed. Only `Ь` is effective there (`Resolvers.VowelsCapitalChoiceAt`).
- Rules.SibilantsChoice, Rules.VOrWChoiceAsWritten, Rules.VOrWChoice, Rules.VowelsSmallChoice, Rules.VowelsCapitalChoice and Rules.YOrIChoice: their own contracts only bound the option. What each chooses is stated by `Resolvers.SibilantIndex`, the `Resolvers` step lemmas, `Rules.VOrWAsWrittenDecides` and `Rules.VOrWChoiceDecides`. Every lookahead and lookbehind they perform (`word[nxt]`, `word[position - 1]`, `word[prvs]`) is checked to be in range on their bodies.

## Findings

| source | as written | input that shows it | evidently intended | confidence | as-written member | corrected member |
|---|---|---|---|---|---|---|
| converter/substitution.py:103 | `word.endswith(char)` asks whether the whole buffer ends with `в`, not whether the leftmost `в` (the one being replaced) is the last character | "Львів": after translate the buffer is "Lьвiв"; the first `в` is followed by `i`, yet the buffer ends with `в`, so it becomes `w` and the word comes out "Lwiw" | `w` only when the occurrence being replaced ends the buffer or precedes a non-vowel, giving "Lviw" | not executed | Rules.VOrWChoiceAsWritten, Rules.VOrWAsWrittenMisreadsLviv, Resolvers.VOrWStepOnLviv | Rules.VOrWChoice, Rules.VOrWChoiceDecides |

=== FILE: resolvers.dfy ===
/**
 What each of the seven rules does to the working buffer, stated against
 independent descriptions: the leftmost occurrence by its specification
 (`IsLeftmost`) rather than by the search, and whole-rule behaviour against
 the one-scan `ReplaceAll` or a plain filter.
 */
module Resolvers {
  import opened Strings
  import opened Rules
  import opened Substitute

  /* ---------------------------------------------------------------------- */
  /* Fixed choices: `_doubles` and `_softener`                               */
  /* ---------------------------------------------------------------------- */

  /**
   A rule whose context function always answers 0 rewrites every occurrence
   of the key with the key's first candidate, as one left-to-right scan would.
   */
  lemma {:induction false} FixedChoiceIsReplaceAll(rule: Rule, e: Entry, text: string)
    requires rule == Doubles || rule == Softener
    requires e in Table(rule)
    ensures WellFormed(e) && ApplyKey(rule, e, text) == ReplaceAll(e.key, e.candidates[0], text)
    decreases CyrillicCount(text)
  {
    EntryShape(rule, e);
    var c := e.candidates[0];
    if Contains(e.key, text) {
      var next := Step(rule, e, text);
      assert next == ReplaceFirst(e.key, c, text);
      FixedChoiceIsReplaceAll(rule, e, next);
      ReplaceAllAfterFirst(e.key, c, text);
    } else {
      ReplaceAllWithoutOccurrence(e.key, c, text);
    }
  }

  /** `s` with every occurrence of `x` dropped. */
  function Without(x: char, s: string): string {
    if s == [] then [] else (if s[0] == x then [] else [s[0]]) + Without(x, s[1..])
  }

  /** `s` with every soft sign, small or capital, dropped and nothing else changed. */
  function DropSoftSigns(s: string): string {
    if s == [] then [] else (if s[0] == 'ь' || s[0] == 'Ь' then [] else [s[0]]) + DropSoftSigns(s[1..])
  }

  lemma {:induction false} ErasingScanIsWithout(x: char, s: string)
    ensures ReplaceAll([x], "", s) == Without(x, s)
  {
    if s != [] {
      ErasingScanIsWithout(x, s[1..]);
      if s[0] == x {
        assert s[..1] == [x];
      } else {
        assert s[..1] != [x];
      }
    }
  }

  lemma {:induction false} WithoutBothSoftSigns(s: string)
    ensures Without('Ь', Without('ь', s)) == DropSoftSigns(s)
  {
    if s != [] {
      WithoutBothSoftSigns(s[1..]);
      var rest := Without('ь', s[1..]);
      if s[0] == 'ь' {
        assert Without('ь', s) == [] + rest == rest;
      } else {
        var kept := [s[0]] + rest;
        assert Without('ь', s) == kept;
        assert kept[0] == s[0] && kept[1..] == rest;
      }
    }
  }

  /** `_softener`: the whole rule deletes every soft sign and changes nothing else. */
  lemma SoftenerDropsSoftSigns(text: string)
    ensures ApplyRule(Softener, text) == DropSoftSigns(text)
  {
    var small, capital := Entry("ь", [""]), Entry("Ь", [""]);
    assert Table(Softener) == [small, capital];
    assert Table(Softener)[1..] == [capital];
    var once := ApplyKey(Softener, small, text);
    assert ApplyRule(Softener, text) == ApplyKey(Softener, capital, once);
    FixedChoiceIsReplaceAll(Softener, small, text);
    FixedChoiceIsReplaceAll(Softener, capital, once);
    ErasingScanIsWithout('ь', text);
    ErasingScanIsWithout('Ь', once);
    WithoutBothSoftSigns(text);
  }

  /* ---------------------------------------------------------------------- */
  /* `_sibilants`                                                            */
  /* ---------------------------------------------------------------------- */

  /** The rendering `_sibilants` picks: the capital one exactly when the buffer is upper-case. */
  function SibilantRendering(e: Entry, text: string): string
    requires |e.candidates| > 0
  {
    if IsUpperText(text) && |e.candidates| > 1 then e.candidates[1] else e.candidates[0]
  }

  /** The small sibilants `ж`, `ч`, `ш` always take candidate 0, their only one. */
  lemma SmallSibilantChoosesFirst(e: Entry, text: string)
    requires e in Table(Sibilants) && Contains(e.key, text)
    requires |e.key| == 1 && IsLowerLetter(e.key[0])
    ensures Choose(Sibilants, e, text) == 0 && |e.candidates| == 1
  {
    EntryShape(Sibilants, e);
    SmallKeyIsNotUpperText(e.key, text);
  }

  /** `_sibilants` answers 1 exactly when the whole buffer is upper-case. */
  lemma SibilantIndex(e: Entry, text: string)
    requires e in Table(Sibilants) && Contains(e.key, text)
    ensures Choose(Sibilants, e, text) == 1 <==> IsUpperText(text)
  {
    EntryShape(Sibilants, e);
  }

  /**
   One sibilant step writes the rendering chosen from the buffer's case, and
   leaves the buffer's case as it was, so every later step chooses the same.
   */
  lemma SibilantStep(e: Entry, text: string)
    requires e in Table(Sibilants) && Contains(e.key, text)
    ensures |e.candidates| > 0
    ensures Step(Sibilants, e, text) == ReplaceFirst(e.key, SibilantRendering(e, text), text)
    ensures IsUpperText(Step(Sibilants, e, text)) == IsUpperText(text)
  {
    assert |e.key| == 1 && |e.candidates| > 0 by {
      SibilantsShape(e);
    }
    var c := SibilantRendering(e, text);
    var j := Choose(Sibilants, e, text);
    assert e.candidates[j] == c by {
      SibilantChoice(e, text);
    }
    var i := IndexOf(e.key, text);
    var a, b := text[..i], text[i + 1..];
    assert Step(Sibilants, e, text) == a + e.candidates[j] + b by {
      StepAt(Sibilants, e, text, i);
    }
    assert text == a + e.key + b by {
      assert OccursAt(e.key, text, i);
    }
    assert
      && |e.key| == 1 && IsLetter(e.key[0])
      && (IsLowerLetter(e.key[0]) ==> HasLowerLetter(c))
      && (IsUpperLetter(e.key[0]) && IsUpperText(text) ==> IsUpperText(c))
    by {
      SibilantsShape(e);
    }
    SibilantCaseKept(e.key, a, c, b, IsUpperText(text));
  }

  /** The candidate `_sibilants` picks is the rendering chosen from the buffer's case. */
  lemma SibilantChoice(e: Entry, text: string)
    requires e in Table(Sibilants) && Contains(e.key, text)
    ensures |e.candidates| > 0 && e.candidates[Choose(Sibilants, e, text)] == SibilantRendering(e, text)
  {
    SibilantsShape(e);
    if IsLowerLetter(e.key[0]) {
      SmallKeyIsNotUpperText(e.key, text);
    }
  }

  /**
   The case argument behind `SibilantStep`: replacing a one-letter key by a
   rendering that has a small letter, or by an upper-case rendering in an
   upper-case buffer, keeps the buffer's case.
   */
  lemma SibilantCaseKept(key: string, a: string, c: string, b: string, upper: bool)
    requires |key| == 1 && IsLetter(key[0]) && upper == IsUpperText(a + key + b)
    requires IsLowerLetter(key[0]) ==> HasLowerLetter(c)
    requires IsUpperLetter(key[0]) && upper ==> IsUpperText(c)
    ensures IsUpperText(a + c + b) == upper
  {
    var before, after := a + key + b, a + c + b;
    UpperTextByMembership(before);
    UpperTextByMembership(after);
    UpperTextByMembership(c);
    assert key[0] in before;
    if IsLowerLetter(key[0]) {
      var w :| 0 <= w < |c| && IsLowerLetter(c[w]);
      assert c[w] in after;
    } else if !upper {
      var x :| x in before && IsLowerLetter(x);
      assert x in a || x in b;
      assert x in after;
    } else {
      var x :| x in c && IsUpperLetter(x);
      assert x in after;
    }
  }

  /**
   `_sibilants`: every occurrence of the key gets the same rendering, the
   capital one exactly when the buffer is upper-case when the loop starts.
   */
  lemma {:induction false} SibilantsIsReplaceAll(e: Entry, text: string)
    requires e in Table(Sibilants)
    ensures WellFormed(e)
    ensures ApplyKey(Sibilants, e, text) == ReplaceAll(e.key, SibilantRendering(e, text), text)
    decreases CyrillicCount(text)
  {
    EntryShape(Sibilants, e);
    var c := SibilantRendering(e, text);
    if Contains(e.key, text) {
      var next := Step(Sibilants, e, text);
      SibilantStep(e, text);
      SibilantsIsReplaceAll(e, next);
      assert SibilantRendering(e, next) == c;
      ReplaceAllAfterFirst(e.key, c, text);
    } else {
      ReplaceAllWithoutOccurrence(e.key, c, text);
    }
  }

  /** `Ч` has the same rendering in both columns, so it always becomes `J`. */
  lemma CapitalCheIsAlwaysJ(text: string)
    ensures ApplyKey(Sibilants, Entry("Ч", ["J", "J"]), text) == ReplaceAll("Ч", "J", text)
  {
    SibilantsIsReplaceAll(Entry("Ч", ["J", "J"]), text);
  }

  /* ---------------------------------------------------------------------- */
  /* The context rules, one step at a time                                   */
  /* ---------------------------------------------------------------------- */

  /**
   `_v_or_w` as written: the leftmost `в`/`В` becomes `w`/`W` when the buffer
   ends with the key or the character after the occurrence is not vowel-like,
   else `v`/`V`.
   */
  lemma VOrWStep(e: Entry, text: string, i: int)
    requires e in Table(VOrW) && IsLeftmost(e.key, text, i)
    ensures |e.key| == 1 && |e.candidates| == 2 && Contains(e.key, text)
    ensures Step(VOrW, e, text) ==
      text[..i]
      + e.candidates[if EndsWith(text, e.key) || (i + 1 < |text| && text[i + 1] !in VowelLike) then 1 else 0]
      + text[i + 1..]
  {
    assert |e.key| == 1 && |e.candidates| == 2 by {
      LetterGroupShape(VOrW, e);
    }
    var j := Choose(VOrW, e, text);
    assert j == (if EndsWith(text, e.key) || (i + 1 < |text| && text[i + 1] !in VowelLike) then 1 else 0) by {
      VOrWAsWrittenDecides(e.key, text, i);
      assert j == VOrWChoiceAsWritten(e.key, text);
    }
    assert Step(VOrW, e, text) == text[..i] + e.candidates[j] + text[i + 1..] by {
      StepAt(VOrW, e, text, i);
    }
  }

  /** On "Lьвiв" the engine, like the source, renders the first `в` as `w`. */
  lemma VOrWStepOnLviv()
    ensures Entry("в", ["v", "w"]) in Table(VOrW) && Contains("в", "Lьвiв")
    ensures Step(VOrW, Entry("в", ["v", "w"]), "Lьвiв") == "Lьwiв"
  {
    var e, t := Entry("в", ["v", "w"]), "Lьвiв";
    assert e == Table(VOrW)[0];
    VOrWAsWrittenMisreadsLviv();
    assert Step(VOrW, e, t) == t[..2] + e.candidates[1] + t[3..] by {
      StepAt(VOrW, e, t, 2);
    }
  }

  /**
   `_vowels_small`: the leftmost small iotated vowel is glide-free (`ia`, `iy`,
   `ie`, `iu`) unless it starts the buffer or follows `'` or `ь`.
   */
  lemma VowelsSmallStep(e: Entry, text: string, i: int)
    requires e in Table(VowelsSmall) && IsLeftmost(e.key, text, i)
    ensures |e.key| == 1 && |e.candidates| == 2 && Contains(e.key, text)
    ensures Step(VowelsSmall, e, text) ==
      text[..i] + e.candidates[if i != 0 && text[i - 1] != '\'' && text[i - 1] != 'ь' then 0 else 1] + text[i + 1..]
  {
    assert |e.key| == 1 && |e.candidates| == 2 by {
      LetterGroupShape(VowelsSmall, e);
    }
    var j := Choose(VowelsSmall, e, text);
    assert j == (if i != 0 && text[i - 1] != '\'' && text[i - 1] != 'ь' then 0 else 1) by {
      IndexOfLeftmost(e.key, text, i);
      assert j == VowelsSmallChoice(e.key, text);
    }
    assert Step(VowelsSmall, e, text) == text[..i] + e.candidates[j] + text[i + 1..] by {
      StepAt(VowelsSmall, e, text, i);
    }
  }

  /**
   `_vowels_capital`: decided on the letters of the buffer, where only `Ь` can
   precede as a softener (an apostrophe is not a letter): glide-free (`IA`...)
   after any other letter, otherwise `Ya`... for a lone letter or a buffer that
   is not all capitals, and `YA`... inside an all-capital buffer.
   */
  lemma VowelsCapitalStep(e: Entry, text: string, i: int, p: int)
    requires e in Table(VowelsCapital) && IsLeftmost(e.key, text, i)
    requires IsLeftmost(e.key, LettersOnly(text), p)
    ensures |e.key| == 1 && |e.candidates| == 3 && Contains(e.key, text)
    ensures var letters := LettersOnly(text);
      Step(VowelsCapital, e, text) ==
        text[..i]
        + e.candidates[
            if p != 0 && letters[p - 1] != 'Ь' then 0
            else if (p == 0 && |letters| == 1) || !IsUpperText(letters) then 1
            else 2]
        + text[i + 1..]
  {
    assert |e.key| == 1 && |e.candidates| == 3 by {
      LetterGroupShape(VowelsCapital, e);
    }
    var letters := LettersOnly(text);
    var j := Choose(VowelsCapital, e, text);
    assert j ==
      (if p != 0 && letters[p - 1] != 'Ь' then 0
       else if (p == 0 && |letters| == 1) || !IsUpperText(letters) then 1
       else 2) by {
      VowelsCapitalChoiceAt(e.key, text, p);
      assert j == VowelsCapitalChoice(e.key, text);
    }
    assert Step(VowelsCapital, e, text) == text[..i] + e.candidates[j] + text[i + 1..] by {
      StepAt(VowelsCapital, e, text, i);
    }
  }

  /** The projection's leftmost occurrence decides `_vowels_capital`; an apostrophe never precedes it there. */
  lemma VowelsCapitalChoiceAt(key: string, text: string, p: int)
    requires |key| == 1 && IsLeftmost(key, LettersOnly(text), p)
    ensures Contains(key, LettersOnly(text))
    ensures var letters := LettersOnly(text);
      VowelsCapitalChoice(key, text) ==
        if p != 0 && letters[p - 1] != 'Ь' then 0
        else if (p == 0 && |letters| == 1) || !IsUpperText(letters) then 1
        else 2
  {
    var letters := LettersOnly(text);
    LeftmostIsUnique(key, letters, IndexOf(key, letters), p);
    if p != 0 {
      assert IsLetter(letters[p - 1]);
    }
  }

  /**
   `_y_or_i`: the leftmost `й`/`Й` is `y`/`Y` at the buffer start or after a
   line break, `i`/`I` after a Latin vowel, and `'y`/`'Y` otherwise.
   */
  lemma YOrIStep(e: Entry, text: string, i: int)
    requires e in Table(YOrI) && IsLeftmost(e.key, text, i)
    ensures |e.key| == 1 && |e.candidates| == 3 && Contains(e.key, text)
    ensures Step(YOrI, e, text) ==
      text[..i]
      + e.candidates[if i == 0 || text[i - 1] == '\n' then 0 else if text[i - 1] in LatinVowels then 1 else 2]
      + text[i + 1..]
  {
    assert |e.key| == 1 && |e.candidates| == 3 by {
      LetterGroupShape(YOrI, e);
    }
    var j := Choose(YOrI, e, text);
    assert j == (if i == 0 || text[i - 1] == '\n' then 0 else if text[i - 1] in LatinVowels then 1 else 2) by {
      IndexOfLeftmost(e.key, text, i);
      assert j == YOrIChoice(e.key, text);
    }
    assert Step(YOrI, e, text) == text[..i] + e.candidates[j] + text[i + 1..] by {
      StepAt(YOrI, e, text, i);
    }
  }
}

=== FILE: romanizer.dfy ===
/**
 The whole conversion under an assumed order: the unambiguous table is
 applied to the whole text first, then the ambiguity groups are resolved one
 after another in table order. The orchestrating `Romanizer` class is not
 part of this model, and `LatynkaMapsa` describes each part without fixing
 their order. The Latin vowel sets of `_v_or_w` and `_y_or_i` point to this
 order; the doubles keys holding a letter of the unambiguous table, which can
 then never fire, point against it.
 */
module Romanizer {
  import opened Strings
  import opened Unambiguous
  import opened Rules
  import opened Substitute

  /** The ambiguity groups in the insertion order of `AMBIGUOUS_CHAR_TAB`. */
  const RuleOrder: seq<Rule> := [Doubles, Sibilants, VOrW, VowelsSmall, VowelsCapital, YOrI, Softener]

  /** The 33 small letters of the Ukrainian alphabet, in alphabetical order. */
  const SmallLetters: string := "абвгґдеєжзиіїйклмнопрстуфхцчшщьюя"

  /** The 33 capital letters of the Ukrainian alphabet, in alphabetical order. */
  const CapitalLetters: string := "АБВГҐДЕЄЖЗИІЇЙКЛМНОПРСТУФХЦЧШЩЬЮЯ"

  const UkrainianAlphabet: string := SmallLetters + CapitalLetters

  /** No one-letter key of the groups in `rules` occurs in `r`. */
  predicate SingleKeysGone(rules: seq<Rule>, r: string) {
    forall rule, e | rule in rules && e in Table(rule) && |e.key| == 1 :: e.key[0] !in r
  }

  /** No key of the groups in `rules` occurs in `text`. */
  predicate NoKeyOccurs(rules: seq<Rule>, text: string) {
    forall rule, e | rule in rules && e in Table(rule) :: !Contains(e.key, text)
  }

  /**
   Resolves the groups of `rules` in order. Every one-letter key of those
   groups is gone from the result, and no Cyrillic character appears that was
   not already in the input.
   */
  function ResolveAmbiguity(rules: seq<Rule>, text: string): (r: string)
    ensures SingleKeysGone(rules, r)
    ensures forall x | IsCyrillic(x) && x !in text :: x !in r
    ensures NoKeyOccurs(rules, text) ==> r == text
    decreases |rules|
  {
    if rules == [] then text
    else
      var once := ApplyRule(rules[0], text);
      var r := ResolveAmbiguity(rules[1..], once);
      assert forall e | e in Table(rules[0]) && |e.key| == 1 :: e.key[0] !in r by {
        forall e | e in Table(rules[0]) && |e.key| == 1
          ensures e.key[0] !in r
        {
          EntryShape(rules[0], e);
          ContainsSingle(e.key, once);
          assert IsCyrillic(e.key[0]);
        }
      }
      assert forall rule | rule in rules :: rule == rules[0] || rule in rules[1..];
      r
  }

  /**
   The whole conversion: `translate` with the unambiguous table, then every
   ambiguity group. Every Cyrillic character of the output was in the input
   and is not a key of the unambiguous table.
   */
  function Romanize(s: string): (r: string)
    ensures forall x | IsCyrillic(x) && x in r :: x in s && !IsKey(x)
  {
    ResolveAmbiguity(RuleOrder, Translate(s))
  }

  /** No letter of the Ukrainian alphabet survives the conversion. */
  lemma RomanizeLeavesNoUkrainianLetter(s: string)
    ensures forall j | 0 <= j < |Romanize(s)| :: Romanize(s)[j] !in UkrainianAlphabet
  {
    var t := Translate(s);
    var r := ResolveAmbiguity(RuleOrder, t);
    NoLetterSurvives(t, r);
    assert Romanize(s) == r;
  }

  /**
   Text holding no key of any table, neither of the unambiguous one nor of a
   group, comes back unchanged, whatever other characters it holds.
   */
  lemma RomanizeWithoutKeys(s: string)
    requires NoTableKey(s) && NoKeyOccurs(RuleOrder, s)
    ensures Romanize(s) == s
  {
    assert Translate(s) == s;
  }

  /** Cyrillic outside the Ukrainian alphabet, such as `ы`, comes back unchanged. */
  lemma RomanizeKeepsForeignCyrillic()
    ensures Romanize("ы") == "ы"
  {
    assert NoKeyOccurs(RuleOrder, "ы") by {
      forall rule, e | rule in RuleOrder && e in Table(rule)
        ensures !Contains(e.key, "ы")
      {
        EntryShape(rule, e);
        if |e.key| == 1 {
          ContainsSingle(e.key, "ы");
        }
      }
    }
    RomanizeWithoutKeys("ы");
  }

  /** Text without Cyrillic, the empty text among it, comes back unchanged. */
  lemma RomanizeKeepsCyrillicFree(s: string)
    requires CyrillicFree(s)
    ensures Romanize(s) == s
  {
    CyrillicFreeHoldsNoKey(s);
    RomanizeWithoutKeys(s);
  }

  /** Text without Cyrillic holds no key of any table. */
  lemma CyrillicFreeHoldsNoKey(s: string)
    requires CyrillicFree(s)
    ensures NoTableKey(s) && NoKeyOccurs(RuleOrder, s)
  {
    CyrillicFreeHasNoKey(s);
    forall rule, e | rule in RuleOrder && e in Table(rule)
      ensures !Contains(e.key, s)
    {
      EntryShape(rule, e);
      CyrillicFreeHasNoCyrillicKey(e.key, s);
    }
  }

  /**
   A text that adds no Cyrillic to one free of unambiguous keys, and holds
   none of the one-letter keys of the groups, holds no letter of the alphabet.
   */
  lemma NoLetterSurvives(t: string, r: string)
    requires NoTableKey(t) && forall x | IsCyrillic(x) && x !in t :: x !in r
    requires SingleKeysGone(RuleOrder, r)
    ensures forall j | 0 <= j < |r| :: r[j] !in UkrainianAlphabet
  {
    KeysAreCyrillic();
    forall j | 0 <= j < |r|
      ensures r[j] !in UkrainianAlphabet
    {
      AlphabetIsCovered(r[j]);
      ResolvedLetterAbsent(r[j], r);
    }
  }

  /** A letter some group resolves is absent once that group's keys are gone. */
  lemma ResolvedLetterAbsent(x: char, r: string)
    requires SingleKeysGone(RuleOrder, r)
    ensures Resolver(x).Some? ==> x !in r
  {
    if Resolver(x).Some? {
      var (rule, i) := Resolver(x).value;
      ResolverFindsKey(x);
      assert Table(rule)[i] in Table(rule);
      assert rule in RuleOrder;
    }
  }

  /** The group, and the position in it, whose one-letter key is `x`, for the letters the unambiguous table leaves alone. */
  function Resolver(x: char): Option<(Rule, nat)> {
    match x
    case 'ж' => Some((Sibilants, 0))
    case 'ч' => Some((Sibilants, 1))
    case 'ш' => Some((Sibilants, 2))
    case 'Ж' => Some((Sibilants, 3))
    case 'Ч' => Some((Sibilants, 4))
    case 'Ш' => Some((Sibilants, 5))
    case 'Щ' => Some((Sibilants, 6))
    case 'Х' => Some((Sibilants, 7))
    case 'в' => Some((VOrW, 0))
    case 'В' => Some((VOrW, 1))
    case 'я' => Some((VowelsSmall, 0))
    case 'ї' => Some((VowelsSmall, 1))
    case 'є' => Some((VowelsSmall, 2))
    case 'ю' => Some((VowelsSmall, 3))
    case 'Я' => Some((VowelsCapital, 0))
    case 'Є' => Some((VowelsCapital, 1))
    case 'Ю' => Some((VowelsCapital, 2))
    case 'Ї' => Some((VowelsCapital, 3))
    case 'й' => Some((YOrI, 0))
    case 'Й' => Some((YOrI, 1))
    case 'ь' => Some((Softener, 0))
    case 'Ь' => Some((Softener, 1))
    case _ => None
  }

  lemma ResolverFindsKey(x: char)
    requires Resolver(x).Some?
    ensures var (rule, i) := Resolver(x).value;
      i < |Table(rule)| && Table(rule)[i].key == [x]
  {
  }

  /** Every letter of the alphabet is a key of the unambiguous table or of a one-letter ambiguity group. */
  lemma AlphabetIsCovered(x: char)
    ensures x in UkrainianAlphabet ==> IsKey(x) || Resolver(x).Some?
  {
    SmallLettersCovered(x);
    CapitalLettersCovered(x);
  }

  // Each case of the alphabet is checked in three runs of eleven letters;
  // a case analysis over all thirty-three at once is far costlier.

  lemma SmallLettersCovered(x: char)
    ensures x in SmallLetters ==> IsKey(x) || Resolver(x).Some?
  {
    assert SmallLetters == "абвгґдеєжзи" + "іїйклмнопрс" + "туфхцчшщьюя";
    SmallFirstCovered(x);
    SmallMiddleCovered(x);
    SmallLastCovered(x);
  }

  lemma SmallFirstCovered(x: char)
    ensures x in "абвгґдеєжзи" ==> IsKey(x) || Resolver(x).Some?
  {
  }

  lemma SmallMiddleCovered(x: char)
    ensures x in "іїйклмнопрс" ==> IsKey(x) || Resolver(x).Some?
  {
  }

  lemma SmallLastCovered(x: char)
    ensures x in "туфхцчшщьюя" ==> IsKey(x) || Resolver(x).Some?
  {
  }

  lemma CapitalLettersCovered(x: char)
    ensures x in CapitalLetters ==> IsKey(x) || Resolver(x).Some?
  {
    assert CapitalLetters == "АБВГҐДЕЄЖЗИ" + "ІЇЙКЛМНОПРС" + "ТУФХЦЧШЩЬЮЯ";
    CapitalFirstCovered(x);
    CapitalMiddleCovered(x);
    CapitalLastCovered(x);
  }

  lemma CapitalFirstCovered(x: char)
    ensures x in "АБВГҐДЕЄЖЗИ" ==> IsKey(x) || Resolver(x).Some?
  {
  }

  lemma CapitalMiddleCovered(x: char)
    ensures x in "ІЇЙКЛМНОПРС" ==> IsKey(x) || Resolver(x).Some?
  {
  }

  lemma CapitalLastCovered(x: char)
    ensures x in "ТУФХЦЧШЩЬЮЯ" ==> IsKey(x) || Resolver(x).Some?
  {
  }

  lemma CyrillicFreeHasNoKey(s: string)
    requires CyrillicFree(s)
    ensures NoTableKey(s)
  {
    KeysAreCyrillic();
  }

  /* ---------------------------------------------------------------------- */
  /* Doubles keys the unambiguous pass has already destroyed                 */
  /* ---------------------------------------------------------------------- */

  /** The doubles keys holding a letter of the unambiguous table. */
  const ShadowedDoubles: seq<string> := ["ьо", "ЬО", "ьк", "ЬК", "шг", "дж", "ДЖ", "Дж", "дч", "ДЧ", "ШГ"]

  /** Each shadowed key is a bigraph with a letter of the unambiguous table in it. */
  lemma ShadowedKeyHoldsTableKey(key: string)
    requires key in ShadowedDoubles
    ensures |key| == 2 && (IsKey(key[0]) || IsKey(key[1]))
  {
  }

  /** A doubles key is shadowed exactly when one of its two letters is an unambiguous key. */
  lemma ShadowedDoublesAreExactlyThese(e: Entry)
    requires e in Table(Doubles)
    ensures |e.key| == 2 && (e.key in ShadowedDoubles <==> IsKey(e.key[0]) || IsKey(e.key[1]))
  {
    if e.key in ShadowedDoubles {
      ShadowedKeyHoldsTableKey(e.key);
    }
    if e in DoublesHead {
      UnlistedHeadIsLive(e);
    } else {
      UnlistedTailIsLive(e);
    }
  }

  lemma UnlistedHeadIsLive(e: Entry)
    requires e in DoublesHead
    ensures |e.key| == 2 && (IsKey(e.key[0]) || IsKey(e.key[1]) ==> e.key in ShadowedDoubles)
  {
    DoublesLetters();
  }

  lemma UnlistedTailIsLive(e: Entry)
    requires e in DoublesTail
    ensures |e.key| == 2 && (IsKey(e.key[0]) || IsKey(e.key[1]) ==> e.key in ShadowedDoubles)
  {
    DoublesLetters();
  }

  /** Which letters of the doubles keys the unambiguous table owns. */
  lemma DoublesLetters()
    ensures IsKey('д') && IsKey('Д') && IsKey('г') && IsKey('Г') && IsKey('к') && IsKey('К') && IsKey('о') && IsKey('О')
    ensures !IsKey('в') && !IsKey('В') && !IsKey('ж') && !IsKey('Ж') && !IsKey('ч') && !IsKey('Ч')
    ensures !IsKey('ш') && !IsKey('Ш') && !IsKey('ь') && !IsKey('Ь')
  {
    OwnedDoublesLetters();
    FreeDoublesLetters();
  }

  lemma OwnedDoublesLetters()
    ensures IsKey('д') && IsKey('Д') && IsKey('г') && IsKey('Г') && IsKey('к') && IsKey('К') && IsKey('о') && IsKey('О')
  {
    assert Lookup('д') == Some("d") && Lookup('Д') == Some("D");
    assert Lookup('г') == Some("h") && Lookup('Г') == Some("H");
    assert Lookup('к') == Some("k") && Lookup('К') == Some("K");
    assert Lookup('о') == Some("o") && Lookup('О') == Some("O");
  }

  lemma FreeDoublesLetters()
    ensures !IsKey('в') && !IsKey('В') && !IsKey('ж') && !IsKey('Ж') && !IsKey('ч') && !IsKey('Ч')
    ensures !IsKey('ш') && !IsKey('Ш') && !IsKey('ь') && !IsKey('Ь')
  {
    FreeSmallDoublesLetters();
    FreeCapitalDoublesLetters();
  }

  lemma FreeSmallDoublesLetters()
    ensures !IsKey('в') && !IsKey('ж') && !IsKey('ч') && !IsKey('ш') && !IsKey('ь')
  {
    assert Lookup('в') == None && Lookup('ж') == None && Lookup('ч') == None;
    assert Lookup('ш') == None && Lookup('ь') == None;
  }

  lemma FreeCapitalDoublesLetters()
    ensures !IsKey('В') && !IsKey('Ж') && !IsKey('Ч') && !IsKey('Ш') && !IsKey('Ь')
  {
    assert Lookup('В') == None && Lookup('Ж') == None && Lookup('Ч') == None;
    assert Lookup('Ш') == None && Lookup('Ь') == None;
  }

  /** A shadowed key cannot occur in a text free of unambiguous keys. */
  lemma ShadowedKeyNeverOccurs(key: string, t: string)
    requires key in ShadowedDoubles && NoTableKey(t)
    ensures !Contains(key, t)
  {
    ShadowedKeyHoldsTableKey(key);
    forall i | 0 <= i <= |t| - 2
      ensures !OccursAt(key, t, i)
    {
      assert !IsKey(t[i]) && !IsKey(t[i + 1]);
      assert t[i..i + 2][0] == t[i] && t[i..i + 2][1] == t[i + 1];
    }
  }

  /** Applying a key never brings back a key of the unambiguous table. */
  lemma ApplyKeyKeepsNoTableKey(rule: Rule, e: Entry, t: string)
    requires e in Table(rule) && NoTableKey(t)
    ensures NoTableKey(ApplyKey(rule, e, t))
  {
    KeysAreCyrillic();
    var r := ApplyKey(rule, e, t);
    forall j | 0 <= j < |r|
      ensures !IsKey(r[j])
    {
      assert r[j] in r;
    }
  }

  /** The doubles entries that can still match after the unambiguous pass. */
  function LiveDoubles(entries: seq<Entry>): (r: seq<Entry>)
    ensures forall e | e in r :: e in entries && e.key !in ShadowedDoubles
    ensures forall e | e in entries && e.key !in ShadowedDoubles :: e in r
  {
    if entries == [] then []
    else (if entries[0].key in ShadowedDoubles then [] else [entries[0]]) + LiveDoubles(entries[1..])
  }

  /**
   On text free of unambiguous keys, as every buffer after `translate` is,
   the doubles pass behaves as if the shadowed entries were not in the table.
   */
  lemma {:induction false} ShadowedDoublesNeverFire(entries: seq<Entry>, t: string)
    requires forall e | e in entries :: e in Table(Doubles)
    requires NoTableKey(t)
    ensures ApplyEntries(Doubles, entries, t) == ApplyEntries(Doubles, LiveDoubles(entries), t)
    decreases |entries|
  {
    if entries != [] {
      var e := entries[0];
      var next := ApplyKey(Doubles, e, t);
      ApplyKeyKeepsNoTableKey(Doubles, e, t);
      ShadowedDoublesNeverFire(entries[1..], next);
      if e.key in ShadowedDoubles {
        ShadowedKeyNeverOccurs(e.key, t);
        assert next == t;
        assert LiveDoubles(entries) == LiveDoubles(entries[1..]);
      } else {
        var live := LiveDoubles(entries);
        assert live == [e] + LiveDoubles(entries[1..]);
        assert live[0] == e && live[1..] == LiveDoubles(entries[1..]);
      }
    }
  }

  /** In the whole conversion, the doubles pass needs only its live entries. */
  lemma RomanizeDoublesPass(s: string)
    ensures ApplyRule(Doubles, Translate(s)) == ApplyEntries(Doubles, LiveDoubles(Table(Doubles)), Translate(s))
  {
    ShadowedDoublesNeverFire(Table(Doubles), Translate(s));
  }
}

=== FILE: rules.dfy ===
/**
 The ambiguous half of the transliteration: `LatynkaMapsa.AMBIGUOUS_CHAR_TAB`
 and the seven context methods `_doubles` ... `_softener`. Each group of the
 table is bound to its rule by the `Rule` tag (the source dispatches on the
 method's `__name__`); each key carries its candidate renderings in the
 source's order, and a rule's context function picks an index into them by
 looking at the whole working buffer.
 */
module Rules {
  import opened Strings

  /** The seven ambiguity groups, one per context method. */
  datatype Rule = Doubles | Sibilants | VOrW | VowelsSmall | VowelsCapital | YOrI | Softener

  /** One key of a group and its candidate renderings. */
  datatype Entry = Entry(key: string, candidates: seq<string>)

  /** The group of `AMBIGUOUS_CHAR_TAB` owned by `rule`, keys in insertion order. */
  function Table(rule: Rule): seq<Entry> {
    match rule
    case Doubles => DoublesHead + DoublesTail
    case Sibilants => SmallSibilants + CapitalSibilants
    case VOrW => [Entry("в", ["v", "w"]), Entry("В", ["V", "W"])]
    case VowelsSmall => [
      Entry("я", ["ia", "ya"]), Entry("ї", ["iy", "yi"]), Entry("є", ["ie", "ye"]), Entry("ю", ["iu", "yu"])]
    case VowelsCapital => [
      Entry("Я", ["IA", "Ya", "YA"]), Entry("Є", ["IE", "Ye", "YE"]),
      Entry("Ю", ["IU", "Yu", "YU"]), Entry("Ї", ["IY", "Yi", "YI"])]
    case YOrI => [Entry("й", ["y", "i", "'y"]), Entry("Й", ["Y", "I", "'Y"])]
    case Softener => [Entry("ь", [""]), Entry("Ь", [""])]
  }

  /** No key appears twice among `entries`. */
  predicate DistinctKeys(entries: seq<Entry>) {
    forall i, j | 0 <= i < j < |entries| :: entries[i].key != entries[j].key
  }

  /** No key of `a` is a key of `b`. */
  predicate DisjointKeys(a: seq<Entry>, b: seq<Entry>) {
    forall i, j | 0 <= i < |a| && 0 <= j < |b| :: a[i].key != b[j].key
  }

  /** Each group is a dict: no key appears twice. */
  lemma TableKeysAreDistinct(rule: Rule)
    ensures DistinctKeys(Table(rule))
  {
    match rule
    case Doubles =>
      DoublesKeysAreDistinct();
      DistinctKeysAppend(DoublesHead, DoublesTail);
    case Sibilants =>
      SibilantsKeysAreDistinct();
      DistinctKeysAppend(SmallSibilants, CapitalSibilants);
    case _ =>
  }

  lemma DoublesKeysAreDistinct()
    ensures DistinctKeys(DoublesHead) && DistinctKeys(DoublesTail) && DisjointKeys(DoublesHead, DoublesTail)
  {
    DoublesHeadKeysAreDistinct();
    DoublesTailKeysAreDistinct();
    DoublesHalvesAreDisjoint();
  }

  lemma DoublesHeadKeysAreDistinct()
    ensures DistinctKeys(DoublesHead)
  {
  }

  lemma DoublesTailKeysAreDistinct()
    ensures DistinctKeys(DoublesTail)
  {
  }

  lemma DoublesHalvesAreDisjoint()
    ensures DisjointKeys(DoublesHead, DoublesTail)
  {
  }

  lemma SibilantsKeysAreDistinct()
    ensures DistinctKeys(SmallSibilants) && DistinctKeys(CapitalSibilants) && DisjointKeys(SmallSibilants, CapitalSibilants)
  {
  }

  /** Two key-disjoint lists of distinct keys join into one. */
  lemma DistinctKeysAppend(a: seq<Entry>, b: seq<Entry>)
    requires DistinctKeys(a) && DistinctKeys(b) && DisjointKeys(a, b)
    ensures DistinctKeys(a + b)
  {
    forall i, j | 0 <= i < j < |a + b|
      ensures (a + b)[i].key != (a + b)[j].key
    {
      if j < |a| {
      } else if i < |a| {
        assert (a + b)[j] == b[j - |a|];
      } else {
        assert (a + b)[i] == b[i - |a|] && (a + b)[j] == b[j - |a|];
      }
    }
  }

  /** The small-letter keys of the `_sibilants` group: one rendering each. */
  const SmallSibilants: seq<Entry> := [Entry("ж", ["zh"]), Entry("ч", ["j"]), Entry("ш", ["sh"])]

  /** The capital-letter keys of the `_sibilants` group: mixed-case, then all-capital rendering. */
  const CapitalSibilants: seq<Entry> := [
    Entry("Ж", ["Zh", "ZH"]), Entry("Ч", ["J", "J"]), Entry("Ш", ["Sh", "SH"]),
    Entry("Щ", ["Shj", "SHJ"]), Entry("Х", ["Ch", "CH"])]

  /**
   The first ten entries of the `_doubles` group. The group is kept as two runs
   of ten so that each fact about its twenty entries is a small case analysis.
   */
  const DoublesHead: seq<Entry> := [
    Entry("ьо", ["io"]), Entry("ЬО", ["IO"]), Entry("ьк", ["q"]), Entry("ЬК", ["Q"]),
    Entry("вв", ["wv"]), Entry("чч", ["jj"]), Entry("жж", ["zhh"]), Entry("шш", ["shh"]),
    Entry("шг", ["shgh"]), Entry("дж", ["dj"])]

  /** The last ten entries of the `_doubles` group. */
  const DoublesTail: seq<Entry> := [
    Entry("ДЖ", ["DJ"]), Entry("Дж", ["Dj"]), Entry("дч", ["dtj"]), Entry("ДЧ", ["DTJ"]),
    Entry("Вв", ["Wv"]), Entry("ВВ", ["WV"]), Entry("ЧЧ", ["JJ"]), Entry("ЖЖ", ["ZHH"]),
    Entry("ШШ", ["SHH"]), Entry("ШГ", ["SHGH"])]

  /**
   What the replace loop relies on: a non-empty all-Cyrillic key and at least
   one candidate, every candidate free of Cyrillic.
   */
  predicate WellFormed(e: Entry) {
    && |e.key| > 0
    && AllCyrillic(e.key)
    && |e.candidates| > 0
    && forall j | 0 <= j < |e.candidates| :: CyrillicFree(e.candidates[j])
  }

  /** No candidate of the entry is the empty string. */
  predicate NonErasing(e: Entry) {
    forall j | 0 <= j < |e.candidates| :: |e.candidates[j]| > 0
  }

  /** The number of candidates each context function chooses among. */
  function Arity(rule: Rule): nat {
    match rule
    case Doubles => 1
    case Sibilants => 2
    case VOrW => 2
    case VowelsSmall => 2
    case VowelsCapital => 3
    case YOrI => 3
    case Softener => 1
  }

  predicate HasLowerLetter(s: string) {
    exists i | 0 <= i < |s| :: IsLowerLetter(s[i])
  }

  /**
   The shape of every group: doubles keys are bigraphs, every other key is one
   letter; only the softener erases; every key has as many candidates as its
   context function can ask for, except the small sibilants, which have one.
   */
  lemma EntryShape(rule: Rule, e: Entry)
    requires e in Table(rule)
    ensures WellFormed(e)
    ensures rule == Doubles ==> |e.key| == 2
    ensures rule != Doubles ==> |e.key| == 1 && IsLetter(e.key[0])
    ensures rule != Softener ==> NonErasing(e)
    ensures rule == Sibilants && IsLowerLetter(e.key[0]) ==> |e.candidates| == 1 && HasLowerLetter(e.candidates[0])
    ensures rule == Sibilants && IsUpperLetter(e.key[0]) ==> |e.candidates| == 2 && IsUpperText(e.candidates[1])
    ensures rule != Sibilants ==> |e.candidates| == Arity(rule)
  {
    match rule
    case Doubles => DoublesShape(e);
    case Sibilants => SibilantsShape(e);
    case VOrW => LetterGroupShape(rule, e);
    case VowelsSmall => LetterGroupShape(rule, e);
    case VowelsCapital => LetterGroupShape(rule, e);
    case YOrI => LetterGroupShape(rule, e);
    case Softener => SoftenerShape(e);
  }

  /** The groups whose context functions look at neighbours: one letter, `Arity` candidates. */
  lemma LetterGroupShape(rule: Rule, e: Entry)
    requires rule in {VOrW, VowelsSmall, VowelsCapital, YOrI} && e in Table(rule)
    ensures WellFormed(e) && |e.key| == 1 && IsLetter(e.key[0]) && NonErasing(e)
    ensures |e.candidates| == Arity(rule)
  {
    match rule
    case VOrW => VOrWShape(e);
    case VowelsSmall => VowelsSmallShape(e);
    case VowelsCapital => VowelsCapitalShape(e);
    case YOrI => YOrIShape(e);
  }

  lemma VOrWShape(e: Entry)
    requires e in Table(VOrW)
    ensures WellFormed(e) && |e.key| == 1 && IsLetter(e.key[0]) && NonErasing(e) && |e.candidates| == 2
  {
  }

  lemma VowelsSmallShape(e: Entry)
    requires e in Table(VowelsSmall)
    ensures WellFormed(e) && |e.key| == 1 && IsLetter(e.key[0]) && NonErasing(e) && |e.candidates| == 2
  {
  }

  lemma VowelsCapitalShape(e: Entry)
    requires e in Table(VowelsCapital)
    ensures WellFormed(e) && |e.key| == 1 && IsLetter(e.key[0]) && NonErasing(e) && |e.candidates| == 3
  {
  }

  lemma YOrIShape(e: Entry)
    requires e in Table(YOrI)
    ensures WellFormed(e) && |e.key| == 1 && IsLetter(e.key[0]) && NonErasing(e) && |e.candidates| == 3
  {
  }

  lemma SoftenerShape(e: Entry)
    requires e in Table(Softener)
    ensures WellFormed(e) && |e.key| == 1 && IsLetter(e.key[0]) && e.candidates == [""]
  {
  }

  lemma DoublesShape(e: Entry)
    requires e in Table(Doubles)
    ensures WellFormed(e) && |e.key| == 2 && NonErasing(e) && |e.candidates| == 1
  {
    if e in DoublesHead {
      DoublesHeadShape(e);
    } else {
      DoublesTailShape(e);
    }
  }

  lemma DoublesHeadShape(e: Entry)
    requires e in DoublesHead
    ensures WellFormed(e) && |e.key| == 2 && NonErasing(e) && |e.candidates| == 1
  {
  }

  lemma DoublesTailShape(e: Entry)
    requires e in DoublesTail
    ensures WellFormed(e) && |e.key| == 2 && NonErasing(e) && |e.candidates| == 1
  {
  }

  lemma SibilantsShape(e: Entry)
    requires e in Table(Sibilants)
    ensures WellFormed(e) && |e.key| == 1 && IsLetter(e.key[0]) && NonErasing(e)
    ensures IsLowerLetter(e.key[0]) ==> |e.candidates| == 1 && HasLowerLetter(e.candidates[0])
    ensures IsUpperLetter(e.key[0]) ==> |e.candidates| == 2 && IsUpperText(e.candidates[1])
  {
    if e in SmallSibilants {
      SmallSibilantsShape(e);
    } else {
      CapitalSibilantsShape(e);
    }
  }

  lemma SmallSibilantsShape(e: Entry)
    requires e in SmallSibilants
    ensures WellFormed(e) && |e.key| == 1 && IsLowerLetter(e.key[0]) && NonErasing(e)
    ensures |e.candidates| == 1 && HasLowerLetter(e.candidates[0])
  {
    assert IsLowerLetter(e.candidates[0][|e.candidates[0]| - 1]);
  }

  lemma CapitalSibilantsShape(e: Entry)
    requires e in CapitalSibilants
    ensures WellFormed(e) && |e.key| == 1 && IsUpperLetter(e.key[0]) && NonErasing(e)
    ensures |e.candidates| == 2 && IsUpperText(e.candidates[1])
  {
    assert IsUpperLetter(e.candidates[1][0]);
  }

  /* ---------------------------------------------------------------------- */
  /* The context functions                                                   */
  /* ---------------------------------------------------------------------- */

  /** `_sibilants`: candidate 1 exactly when the whole buffer is upper-case. */
  function SibilantsChoice(text: string): (r: nat)
    ensures r < Arity(Sibilants)
  {
    if IsUpperText(text) then 1 else 0
  }

  /** The characters `_v_or_w` accepts after the key for the `v` rendering. */
  const VowelLike: string := "aeyoiuєяAEYOIUЄЯ"

  /**
   `_v_or_w` as written, the rule the engine runs: `w` when the BUFFER ends
   with the key, wherever its leftmost occurrence is, or when the character
   after the leftmost occurrence is not vowel-like.
   */
  function VOrWChoiceAsWritten(key: string, text: string): (r: nat)
    requires Contains(key, text)
    ensures r < Arity(VOrW)
  {
    var next := IndexOf(key, text) + 1;
    if EndsWith(text, key) || text[next] !in VowelLike then 1 else 0
  }

  /**
   `_v_or_w` as evidently intended: `w` when the leftmost occurrence itself
   ends the buffer or is followed by a character that is not vowel-like.
   */
  function VOrWChoice(key: string, text: string): (r: nat)
    requires Contains(key, text)
    ensures r < Arity(VOrW)
  {
    var next := IndexOf(key, text) + |key|;
    if next == |text| || text[next] !in VowelLike then 1 else 0
  }

  /**
   What `_v_or_w` as written decides, read through the leftmost occurrence `i`:
   the end-of-buffer test does not look at `i` at all.
   */
  lemma VOrWAsWrittenDecides(key: string, text: string, i: int)
    requires |key| == 1 && IsLeftmost(key, text, i)
    ensures Contains(key, text)
    ensures VOrWChoiceAsWritten(key, text) ==
      if EndsWith(text, key) || (i + 1 < |text| && text[i + 1] !in VowelLike) then 1 else 0
  {
    LeftmostIsUnique(key, text, IndexOf(key, text), i);
    if i + 1 == |text| {
      assert text[|text| - |key|..] == text[i..i + 1];
    }
  }

  /**
   What the corrected `_v_or_w` decides, read through the leftmost occurrence
   `i`: the end test and the lookahead both concern that occurrence.
   */
  lemma VOrWChoiceDecides(key: string, text: string, i: int)
    requires |key| == 1 && IsLeftmost(key, text, i)
    ensures Contains(key, text)
    ensures VOrWChoice(key, text) == if i + 1 == |text| || text[i + 1] !in VowelLike then 1 else 0
  {
    LeftmostIsUnique(key, text, IndexOf(key, text), i);
  }

  /**
   The two readings differ on "Львів" once the context-free pass has made it
   "Lьвiв": the first `в` is followed by the vowel `i`, so it should stay `v`,
   but the buffer ends with `в`, so the code as written picks `w`.
   */
  lemma VOrWAsWrittenMisreadsLviv()
    ensures Contains("в", "Lьвiв") && IndexOf("в", "Lьвiв") == 2 && "Lьвiв"[3] in VowelLike
    ensures VOrWChoiceAsWritten("в", "Lьвiв") == 1
    ensures VOrWChoice("в", "Lьвiв") == 0
  {
    var t := "Lьвiв";
    assert OccursAt("в", t, 2) by {
      assert t[2..3] == "в";
    }
    assert IsLeftmost("в", t, 2) by {
      forall j | 0 <= j < 2
        ensures !OccursAt("в", t, j)
      {
        assert t[j..j + 1][0] == t[j];
      }
    }
    LeftmostIsUnique("в", t, IndexOf("в", t), 2);
    assert EndsWith(t, "в") by {
      assert t[4..] == "в";
    }
  }

  /** The readings agree whenever the leftmost occurrence of the key is also its last. */
  lemma VOrWReadingsAgreeOnLastOccurrence(key: string, text: string)
    requires |key| == 1 && Contains(key, text)
    requires forall j | IndexOf(key, text) < j :: !OccursAt(key, text, j)
    ensures VOrWChoiceAsWritten(key, text) == VOrWChoice(key, text)
  {
    var i := IndexOf(key, text);
    if EndsWith(text, key) {
      assert OccursAt(key, text, |text| - 1);
    }
    if i + 1 == |text| {
      assert text[|text| - |key|..] == text[i..i + 1];
    }
  }

  /** `_vowels_small`: the glide-free rendering unless at the buffer start or after `'` or `ь`. */
  function VowelsSmallChoice(key: string, text: string): (r: nat)
    requires Contains(key, text)
    ensures r < Arity(VowelsSmall)
  {
    var i := IndexOf(key, text);
    if i != 0 && text[i - 1] !in "'ь" then 0 else 1
  }

  /**
   `_vowels_capital`: decided on the letters-only projection of the buffer;
   the glide renderings are mixed case (1) unless the projection is an
   all-capital text of more than one letter (2).
   */
  function VowelsCapitalChoice(key: string, text: string): (r: nat)
    requires Contains(key, LettersOnly(text))
    ensures r < Arity(VowelsCapital)
  {
    var letters := LettersOnly(text);
    var i := IndexOf(key, letters);
    if i != 0 && letters[i - 1] !in "'Ь" then 0
    else if (i == 0 && |letters| == 1) || !IsUpperText(letters) then 1
    else 2
  }

  /** The characters `_y_or_i` treats as a preceding vowel. */
  const LatinVowels: string := "aeiouyAEIOUY"

  /** `_y_or_i`: word-initial at the buffer start or after a line break, `i` after a Latin vowel, else `'y`. */
  function YOrIChoice(key: string, text: string): (r: nat)
    requires Contains(key, text)
    ensures r < Arity(YOrI)
  {
    var i := IndexOf(key, text);
    if i == 0 || text[i - 1] == '\n' then 0
    else if text[i - 1] in LatinVowels then 1
    else 2
  }

  /**
   The candidate index for the leftmost occurrence of `e.key`, dispatched on
   the rule; it is always in range for the entry's candidates.
   */
  function Choose(rule: Rule, e: Entry, text: string): (r: nat)
    requires e in Table(rule) && Contains(e.key, text)
    ensures r < |e.candidates|
  {
    EntryShape(rule, e);
    match rule
    case Doubles => 0
    case Sibilants =>
      if IsLowerLetter(e.key[0]) then
        SmallKeyIsNotUpperText(e.key, text);
        SibilantsChoice(text)
      else
        SibilantsChoice(text)
    case VOrW => VOrWChoiceAsWritten(e.key, text)
    case VowelsSmall => VowelsSmallChoice(e.key, text)
    case VowelsCapital =>
      LetterKeySurvivesProjection(e.key, text);
      VowelsCapitalChoice(e.key, text)
    case YOrI => YOrIChoice(e.key, text)
    case Softener => 0
  }

  /** A buffer holding a small letter is never upper-case. */
  lemma SmallKeyIsNotUpperText(key: string, text: string)
    requires |key| == 1 && IsLowerLetter(key[0]) && Contains(key, text)
    ensures !IsUpperText(text)
  {
    ContainsSingle(key, text);
  }
}

=== FILE: scenarios.dfy ===
/**
 Worked conversions: whole words taken through the assumed composition
 `Romanizer.Romanize`. Each word is translated character by character, then
 each group in table order either finds none of its keys or makes the one
 rewrite worked out in `WorkedGroups`.
 */
module Scenarios {
  import opened Strings
  import opened Unambiguous
  import opened Rules
  import opened Substitute
  import opened Romanizer
  import opened WorkedTranslation
  import opened WorkedGroups

  /** The first group hands its result to the groups after it. */
  lemma ResolveFirst(rule: Rule, rest: seq<Rule>, text: string, r: string)
    requires ApplyRule(rule, text) == r
    ensures ResolveAmbiguity([rule] + rest, text) == ResolveAmbiguity(rest, r)
  {
    assert ([rule] + rest)[1..] == rest;
  }

  /** Groups that find none of their keys leave the buffer as it is. */
  lemma ResolveTail(rules: seq<Rule>, k: nat, text: string)
    requires k <= |rules| && NoKeyOccurs(rules, text)
    ensures ResolveAmbiguity(rules[k..], text) == text
  {
    assert NoKeyOccurs(rules[k..], text);
  }

  /** A Latin buffer passes every group from the `k`-th on unchanged. */
  lemma LatinTail(k: nat, text: string)
    requires k <= |RuleOrder| && forall c | c in text :: c < '\U{0400}'
    ensures ResolveAmbiguity(RuleOrder[k..], text) == text
  {
    LatinText(text);
    CyrillicFreeHoldsNoKey(text);
    ResolveTail(RuleOrder, k, text);
  }

  // мама

  /** `мама`: only the unambiguous table is involved, and no group finds a key. */
  lemma RomanizeMama()
    ensures Romanize("мама") == "mama"
  {
    MamaTranslated();
    MamaKept();
  }

  lemma MamaKept()
    ensures ResolveAmbiguity(RuleOrder, "mama") == "mama"
  {
    LatinTail(0, "mama");
    assert RuleOrder[0..] == RuleOrder;
  }

  // лев

  /** The doubles and the sibilants find nothing in "leв"; `_v_or_w` makes it "lew". */
  lemma LevFirstGroups()
    ensures ResolveAmbiguity(RuleOrder, "leв") == ResolveAmbiguity(RuleOrder[3..], "lew")
  {
    var rest := RuleOrder[3..];
    assert RuleOrder == [Doubles] + ([Sibilants] + ([VOrW] + rest));
    DoublesOnLev();
    SibilantsOnLev();
    VOrWOnLev();
    ResolveFirst(VOrW, rest, "leв", "lew");
    ResolveFirst(Sibilants, [VOrW] + rest, "leв", "leв");
    ResolveFirst(Doubles, [Sibilants] + ([VOrW] + rest), "leв", "leв");
  }

  /** `лев`: the final `в` ends the buffer, so it is rendered `w`. */
  lemma RomanizeLev()
    ensures Romanize("лев") == "lew"
  {
    LevTranslated();
    LevFirstGroups();
    LewKept();
  }

  lemma LewKept()
    ensures ResolveAmbiguity(RuleOrder[3..], "lew") == "lew"
  {
    LatinTail(3, "lew");
  }

  // жж

  lemma ZhzhDoubles()
    ensures ResolveAmbiguity(RuleOrder, "жж") == ResolveAmbiguity(RuleOrder[1..], "zhh")
  {
    assert RuleOrder == [Doubles] + RuleOrder[1..];
    DoublesOnZhzh();
    ResolveFirst(Doubles, RuleOrder[1..], "жж", "zhh");
  }

  /** `жж`: the pair is a key of the doubles, which run first. */
  lemma RomanizeZhzh()
    ensures Romanize("жж") == "zhh"
  {
    ZhzhTranslated();
    ZhzhDoubles();
    ZhhKept();
  }

  lemma ZhhKept()
    ensures ResolveAmbiguity(RuleOrder[1..], "zhh") == "zhh"
  {
    LatinTail(1, "zhh");
  }

  // мальва

  /** `ьв` is no double and there is no sibilant; `_v_or_w` renders `в` before a vowel `v`. */
  lemma MalvaFirstGroups()
    ensures ResolveAmbiguity(RuleOrder, "malьвa") == ResolveAmbiguity(RuleOrder[3..], "malьva")
  {
    var rest := RuleOrder[3..];
    assert RuleOrder == [Doubles] + ([Sibilants] + ([VOrW] + rest));
    DoublesOnMalva();
    SibilantsOnMalva();
    VOrWOnMalva();
    ResolveFirst(VOrW, rest, "malьвa", "malьva");
    ResolveFirst(Sibilants, [VOrW] + rest, "malьвa", "malьвa");
    ResolveFirst(Doubles, [Sibilants] + ([VOrW] + rest), "malьвa", "malьвa");
  }

  /** The vowel groups and `_y_or_i` find nothing; the softener drops the soft sign. */
  lemma MalvaLastGroups()
    ensures ResolveAmbiguity(RuleOrder[3..], "malьva") == "malva"
  {
    var last := RuleOrder[6..];
    assert RuleOrder[3..] == [VowelsSmall] + ([VowelsCapital] + ([YOrI] + last));
    assert last == [Softener] + [];
    VowelsSmallOnMalva();
    VowelsCapitalOnMalva();
    YOrIOnMalva();
    SoftenerOnMalva();
    ResolveFirst(Softener, [], "malьva", "malva");
    ResolveFirst(YOrI, last, "malьva", "malьva");
    ResolveFirst(VowelsCapital, [YOrI] + last, "malьva", "malьva");
    ResolveFirst(VowelsSmall, [VowelsCapital] + ([YOrI] + last), "malьva", "malьva");
  }

  /** `мальва`: the `в` before a vowel is `v`, and the soft sign is dropped. */
  lemma RomanizeMalva()
    ensures Romanize("мальва") == "malva"
  {
    MalvaTranslated();
    MalvaFirstGroups();
    MalvaLastGroups();
  }

  // йогурт

  /** Only `й` is left, and the first three groups do not have it as a key. */
  lemma YogurtFirstGroups()
    ensures ResolveAmbiguity(RuleOrder, "йohurt") == ResolveAmbiguity(RuleOrder[3..], "йohurt")
  {
    var rest := RuleOrder[3..];
    assert RuleOrder == [Doubles] + ([Sibilants] + ([VOrW] + rest));
    DoublesOnYogurt();
    SibilantsOnYogurt();
    VOrWOnYogurt();
    ResolveFirst(VOrW, rest, "йohurt", "йohurt");
    ResolveFirst(Sibilants, [VOrW] + rest, "йohurt", "йohurt");
    ResolveFirst(Doubles, [Sibilants] + ([VOrW] + rest), "йohurt", "йohurt");
  }

  /** The vowel groups find nothing; `_y_or_i` renders the initial `й` as `y`. */
  lemma YogurtLastGroups()
    ensures ResolveAmbiguity(RuleOrder[3..], "йohurt") == ResolveAmbiguity(RuleOrder[6..], "yohurt")
  {
    var last := RuleOrder[6..];
    assert RuleOrder[3..] == [VowelsSmall] + ([VowelsCapital] + ([YOrI] + last));
    VowelsSmallOnYogurt();
    VowelsCapitalOnYogurt();
    YOrIOnYogurt();
    ResolveFirst(YOrI, last, "йohurt", "yohurt");
    ResolveFirst(VowelsCapital, [YOrI] + last, "йohurt", "йohurt");
    ResolveFirst(VowelsSmall, [VowelsCapital] + ([YOrI] + last), "йohurt", "йohurt");
  }

  /** `йогурт`: the `й` starts the word, so it is rendered `y`. */
  lemma RomanizeYogurt()
    ensures Romanize("йогурт") == "yohurt"
  {
    YogurtTranslated();
    YogurtFirstGroups();
    YogurtLastGroups();
    YohurtKept();
  }

  lemma YohurtKept()
    ensures ResolveAmbiguity(RuleOrder[6..], "yohurt") == "yohurt"
  {
    LatinTail(6, "yohurt");
  }
}

=== FILE: strings.dfy ===
/**
 Text primitives the transliteration engine is built on: the Cyrillic block
 (whose count is the termination measure of every replace loop), the
 occurrence of a key in a buffer, the leftmost-occurrence search that both
 `str.index` and `str.replace(key, rep, 1)` perform, and the cased / alphabetic
 character classes that `str.isupper` and `str.isalpha` consult.

 Python's Unicode tables are replaced by an explicit finite alphabet: ASCII
 letters, the basic Cyrillic letters U+0400..U+045F and the pair Ґ/ґ are
 letters (and cased); every other character is an uncased non-letter.
 */
module Strings {

  datatype Option<+T> = None | Some(value: T)

  /* ---------------------------------------------------------------------- */
  /* The Cyrillic block                                                      */
  /* ---------------------------------------------------------------------- */

  /** A character of the Unicode Cyrillic block U+0400..U+04FF. */
  predicate IsCyrillic(c: char) {
    '\U{0400}' <= c <= '\U{04FF}'
  }

  predicate AllCyrillic(s: string) {
    forall i | 0 <= i < |s| :: IsCyrillic(s[i])
  }

  predicate CyrillicFree(s: string) {
    forall i | 0 <= i < |s| :: !IsCyrillic(s[i])
  }

  /** The number of Cyrillic characters in `s`: the measure every replace loop decreases. */
  function CyrillicCount(s: string): nat {
    if s == [] then 0 else (if IsCyrillic(s[0]) then 1 else 0) + CyrillicCount(s[1..])
  }

  lemma {:induction false} CyrillicCountConcat(a: string, b: string)
    ensures CyrillicCount(a + b) == CyrillicCount(a) + CyrillicCount(b)
  {
    if a == [] {
      assert a + b == b;
    } else {
      assert (a + b)[1..] == a[1..] + b;
      CyrillicCountConcat(a[1..], b);
    }
  }

  lemma {:induction false} CyrillicCountOfFree(s: string)
    requires CyrillicFree(s)
    ensures CyrillicCount(s) == 0
  {
    if s != [] {
      CyrillicCountOfFree(s[1..]);
    }
  }

  lemma {:induction false} CyrillicCountOfAll(s: string)
    requires AllCyrillic(s)
    ensures CyrillicCount(s) == |s|
  {
    if s != [] {
      CyrillicCountOfAll(s[1..]);
    }
  }

  /* ---------------------------------------------------------------------- */
  /* Occurrences of a key                                                    */
  /* ---------------------------------------------------------------------- */

  /** `key` occurs in `text` starting at index `i`. */
  predicate OccursAt(key: string, text: string, i: int) {
    0 <= i && i + |key| <= |text| && text[i..i + |key|] == key
  }

  /** Python's `key in text`. */
  predicate Contains(key: string, text: string) {
    exists i | 0 <= i <= |text| - |key| :: OccursAt(key, text, i)
  }

  /** `i` is the leftmost occurrence of `key` in `text`. */
  predicate IsLeftmost(key: string, text: string, i: int) {
    OccursAt(key, text, i) && forall j | 0 <= j < i :: !OccursAt(key, text, j)
  }

  /** Python's `text.endswith(key)`. */
  predicate EndsWith(text: string, key: string) {
    |key| <= |text| && text[|text| - |key|..] == key
  }

  lemma LeftmostIsUnique(key: string, text: string, i: int, j: int)
    requires IsLeftmost(key, text, i) && IsLeftmost(key, text, j)
    ensures i == j
  {
  }

  /** Scans `text` from index `from` for the first occurrence of `key`. */
  function FindFrom(key: string, text: string, from: nat): (r: Option<nat>)
    ensures r.Some? ==> from <= r.value && OccursAt(key, text, r.value)
    ensures r.Some? ==> forall j | from <= j < r.value :: !OccursAt(key, text, j)
    ensures r.None? ==> forall j | from <= j :: !OccursAt(key, text, j)
    decreases |text| - from
  {
    if from + |key| > |text| then None
    else if text[from..from + |key|] == key then Some(from)
    else FindFrom(key, text, from + 1)
  }

  /** Python's `text.find(key)`: the leftmost occurrence, if there is one. */
  function Find(key: string, text: string): (r: Option<nat>)
    ensures r.Some? <==> Contains(key, text)
    ensures r.Some? ==> IsLeftmost(key, text, r.value)
  {
    FindFrom(key, text, 0)
  }

  /** Python's `text.index(key)`, which raises unless `key in text`. */
  function IndexOf(key: string, text: string): (i: nat)
    requires Contains(key, text)
    ensures IsLeftmost(key, text, i)
  {
    Find(key, text).value
  }

  /** `IndexOf` finds exactly the leftmost occurrence. */
  lemma IndexOfLeftmost(key: string, text: string, i: int)
    requires IsLeftmost(key, text, i)
    ensures Contains(key, text) && IndexOf(key, text) == i
  {
    assert 0 <= i <= |text| - |key| && OccursAt(key, text, i);
    LeftmostIsUnique(key, text, IndexOf(key, text), i);
  }

  /** Python's `text.replace(key, rep, 1)`: only the leftmost occurrence is rewritten. */
  function ReplaceFirst(key: string, rep: string, text: string): (r: string)
    ensures !Contains(key, text) ==> r == text
    ensures forall i | IsLeftmost(key, text, i) :: r == text[..i] + rep + text[i + |key|..]
  {
    match Find(key, text)
    case None => text
    case Some(i) => text[..i] + rep + text[i + |key|..]
  }

  /**
   Reference definition: every non-overlapping occurrence replaced by the same
   string in one left-to-right scan (Python's `text.replace(key, rep)`).
   */
  function ReplaceAll(key: string, rep: string, text: string): string
    requires |key| > 0
    decreases |text|
  {
    if |text| < |key| then text
    else if text[..|key|] == key then rep + ReplaceAll(key, rep, text[|key|..])
    else [text[0]] + ReplaceAll(key, rep, text[1..])
  }

  /* ---------------------------------------------------------------------- */
  /* Occurrences across a concatenation                                      */
  /* ---------------------------------------------------------------------- */

  lemma OccursInPrefix(key: string, a: string, rest: string, j: int)
    requires 0 <= j && j + |key| <= |a|
    ensures OccursAt(key, a + rest, j) <==> OccursAt(key, a, j)
  {
    assert (a + rest)[j..j + |key|] == a[j..j + |key|];
  }

  lemma OccursInSuffix(key: string, pre: string, b: string, j: int)
    requires 0 <= j
    ensures OccursAt(key, pre + b, |pre| + j) <==> OccursAt(key, b, j)
  {
    if j + |key| <= |b| {
      assert (pre + b)[|pre| + j..|pre| + j + |key|] == b[j..j + |key|];
    }
  }

  /** A single-character key is contained exactly when its character is. */
  lemma ContainsSingle(key: string, text: string)
    requires |key| == 1
    ensures Contains(key, text) <==> key[0] in text
  {
    if key[0] in text {
      var i :| 0 <= i < |text| && text[i] == key[0];
      assert text[i..i + 1] == key;
      assert OccursAt(key, text, i);
    }
  }

  /** A key made of Cyrillic characters never occurs in a text with none. */
  lemma CyrillicFreeHasNoCyrillicKey(key: string, s: string)
    requires |key| > 0 && AllCyrillic(key) && CyrillicFree(s)
    ensures !Contains(key, s)
  {
    forall i | 0 <= i <= |s| - |key|
      ensures !OccursAt(key, s, i)
    {
      assert !IsCyrillic(s[i]) && IsCyrillic(key[0]);
      assert s[i..i + |key|][0] == s[i];
    }
  }

  /** A single-character key occurs leftmost at the first index holding its character. */
  lemma SingleLeftmost(key: string, text: string, i: int)
    requires |key| == 1 && 0 <= i < |text| && text[i] == key[0] && key[0] !in text[..i]
    ensures IsLeftmost(key, text, i)
  {
    assert text[i..i + 1] == key;
    forall j | 0 <= j < i
      ensures !OccursAt(key, text, j)
    {
      assert text[..i][j] == text[j];
    }
  }

  /**
   An all-Cyrillic key cannot straddle a Cyrillic-free infix `c`; when `c` is
   empty it cannot straddle the join either, provided it is a single character.
   */
  lemma NoOccurrenceAcross(key: string, a: string, c: string, b: string, j: int)
    requires |key| > 0 && AllCyrillic(key) && CyrillicFree(c)
    requires |c| > 0 || |key| == 1
    requires j < |a| + |c| && |a| < j + |key|
    ensures !OccursAt(key, a + c + b, j)
  {
    assert |c| > 0;
    var t := a + c + b;
    var m := if j < |a| then |a| else j;
    assert !IsCyrillic(t[m]) by {
      assert t[m] == c[m - |a|];
    }
    if 0 <= j && j + |key| <= |t| {
      assert t[j..j + |key|][m - j] == t[m];
      assert IsCyrillic(key[m - j]);
    }
  }

  /**
   Rewriting one occurrence of some key into Cyrillic-free text never creates
   an occurrence of an all-Cyrillic key that was absent before.
   */
  lemma AbsentStaysAbsent(k: string, a: string, key: string, rep: string, b: string)
    requires |k| > 0 && AllCyrillic(k) && CyrillicFree(rep)
    requires |rep| > 0 || |k| == 1
    requires !Contains(k, a + key + b)
    ensures !Contains(k, a + rep + b)
  {
    forall j | 0 <= j <= |a + rep + b| - |k|
      ensures !OccursAt(k, a + rep + b, j)
    {
      if j + |k| <= |a| {
        OccursInPrefix(k, a, rep + b, j);
        OccursInPrefix(k, a, key + b, j);
        assert a + rep + b == a + (rep + b);
        assert a + key + b == a + (key + b);
        assert !OccursAt(k, a + key + b, j);
      } else if j >= |a| + |rep| {
        OccursInSuffix(k, a + rep, b, j - |a| - |rep|);
        OccursInSuffix(k, a + key, b, j - |a| - |rep|);
        assert !OccursAt(k, a + key + b, |a| + |key| + (j - |a| - |rep|));
      } else {
        NoOccurrenceAcross(k, a, rep, b, j);
      }
    }
  }

  /**
   When `a` holds no occurrence of an all-Cyrillic key and `c` cannot be
   straddled, the occurrences of the key in `a + c + b` are those of `b`,
   shifted; in particular the leftmost ones correspond.
   */
  lemma OccurrencesAfterSeparator(key: string, a: string, c: string, b: string)
    requires |key| > 0 && AllCyrillic(key) && CyrillicFree(c)
    requires |c| > 0 || |key| == 1
    requires !Contains(key, a)
    ensures Contains(key, a + c + b) <==> Contains(key, b)
    ensures forall q | IsLeftmost(key, b, q) :: IsLeftmost(key, a + c + b, |a| + |c| + q)
  {
    var t := a + c + b;
    assert t == (a + c) + b;
    forall j | 0 <= j < |a| + |c|
      ensures !OccursAt(key, t, j)
    {
      if j + |key| <= |a| {
        OccursInPrefix(key, a, c + b, j);
        assert t == a + (c + b);
      } else {
        NoOccurrenceAcross(key, a, c, b, j);
      }
    }
    forall q | 0 <= q
      ensures OccursAt(key, t, |a| + |c| + q) <==> OccursAt(key, b, q)
    {
      OccursInSuffix(key, a + c, b, q);
    }
    if Contains(key, t) {
      var j :| 0 <= j <= |t| - |key| && OccursAt(key, t, j);
      assert OccursAt(key, b, j - |a| - |c|);
    }
    if Contains(key, b) {
      var q :| 0 <= q <= |b| - |key| && OccursAt(key, b, q);
      assert OccursAt(key, t, |a| + |c| + q);
    }
    forall q | IsLeftmost(key, b, q)
      ensures IsLeftmost(key, t, |a| + |c| + q)
    {
      forall j | 0 <= j < |a| + |c| + q
        ensures !OccursAt(key, t, j)
      {
        if j >= |a| + |c| {
          assert !OccursAt(key, b, j - |a| - |c|);
        }
      }
    }
  }

  /** The text before the leftmost occurrence holds no occurrence. */
  lemma NoOccurrenceBeforeLeftmost(key: string, text: string, i: int)
    requires |key| > 0 && IsLeftmost(key, text, i)
    ensures !Contains(key, text[..i])
  {
    assert text == text[..i] + text[i..];
    forall j | 0 <= j <= i - |key|
      ensures !OccursAt(key, text[..i], j)
    {
      OccursInPrefix(key, text[..i], text[i..], j);
    }
  }

  /** Dropping a first character that starts no occurrence shifts the leftmost one by one. */
  lemma LeftmostInTail(key: string, text: string, i: int)
    requires IsLeftmost(key, text, i) && i > 0
    ensures IsLeftmost(key, text[1..], i - 1)
  {
    var tail := text[1..];
    assert text == [text[0]] + tail;
    forall j | 0 <= j < i - 1
      ensures !OccursAt(key, tail, j)
    {
      OccursInSuffix(key, [text[0]], tail, j);
    }
    OccursInSuffix(key, [text[0]], tail, i - 1);
  }

  /** The scan copies everything before the leftmost occurrence and rewrites that occurrence. */
  lemma ReplaceAllAtLeftmost(key: string, rep: string, text: string, i: int)
    requires |key| > 0 && IsLeftmost(key, text, i)
    ensures ReplaceAll(key, rep, text) == text[..i] + rep + ReplaceAll(key, rep, text[i + |key|..])
  {
    LeftmostSplits(key, rep, text, i);
  }

  /** The scan of `text` passes `text[..i]` through and rewrites the occurrence at `i`. */
  ghost predicate SplitsAt(key: string, rep: string, text: string, i: int)
    requires |key| > 0 && 0 <= i && i + |key| <= |text|
  {
    ReplaceAll(key, rep, text) == text[..i] + rep + ReplaceAll(key, rep, text[i + |key|..])
  }

  /** The induction behind `ReplaceAllAtLeftmost`, on the position of the leftmost occurrence. */
  lemma {:induction false} LeftmostSplits(key: string, rep: string, text: string, i: int)
    requires |key| > 0 && IsLeftmost(key, text, i)
    ensures SplitsAt(key, rep, text, i)
    decreases i
  {
    if i == 0 {
      ReplaceAllAtStart(key, rep, text);
      PrependNothing(text, rep, ReplaceAll(key, rep, text), ReplaceAll(key, rep, text[|key|..]));
    } else {
      var tail := text[1..];
      assert !OccursAt(key, text, 0);
      LeftmostInTail(key, text, i);
      LeftmostSplits(key, rep, tail, i - 1);
      CopyFirst(key, rep, text, tail, i);
    }
  }

  /** One step of `LeftmostSplits`: the scan copies `text[0]` and goes on with the tail. */
  lemma CopyFirst(key: string, rep: string, text: string, tail: string, i: int)
    requires |key| > 0 && 0 < i && i + |key| <= |text| && !OccursAt(key, text, 0) && tail == text[1..]
    requires SplitsAt(key, rep, tail, i - 1)
    ensures SplitsAt(key, rep, text, i)
  {
    ReplaceAllSkipsFirst(key, rep, text);
    TailSlices(text, i, |key|);
    PrependCopied(text, i, rep, ReplaceAll(key, rep, text), ReplaceAll(key, rep, tail),
      ReplaceAll(key, rep, text[i + |key|..]));
  }

  /** Nothing is copied in front of an occurrence at the start. */
  lemma PrependNothing(text: string, rep: string, whole: string, after: string)
    requires whole == rep + after
    ensures whole == text[..0] + rep + after
  {
    assert text[..0] == [];
  }

  /** Copying the first character in front of a rewrite of the rest. */
  lemma PrependCopied(text: string, i: int, rep: string, whole: string, rest: string, after: string)
    requires 0 < i <= |text|
    requires whole == [text[0]] + rest && rest == text[1..][..i - 1] + rep + after
    ensures whole == text[..i] + rep + after
  {
    assert [text[0]] + text[1..][..i - 1] == text[..i];
    Regroup([text[0]], text[1..][..i - 1], rep, after);
  }

  /** An occurrence at the start is rewritten first. */
  lemma ReplaceAllAtStart(key: string, rep: string, text: string)
    requires |key| > 0 && OccursAt(key, text, 0)
    ensures ReplaceAll(key, rep, text) == rep + ReplaceAll(key, rep, text[|key|..])
  {
    assert text[..|key|] == key;
  }

  /** A first character that starts no occurrence is copied. */
  lemma ReplaceAllSkipsFirst(key: string, rep: string, text: string)
    requires |key| > 0 && |key| <= |text| && !OccursAt(key, text, 0)
    ensures ReplaceAll(key, rep, text) == [text[0]] + ReplaceAll(key, rep, text[1..])
  {
    assert text[..|key|] != key;
  }

  lemma TailSlices(text: string, i: int, k: nat)
    requires 0 < i && i + k <= |text|
    ensures text[1..][i - 1 + k..] == text[i + k..]
  {
  }

  /** Without an occurrence the scan copies the text. */
  lemma {:induction false} ReplaceAllWithoutOccurrence(key: string, rep: string, text: string)
    requires |key| > 0 && !Contains(key, text)
    ensures ReplaceAll(key, rep, text) == text
    decreases |text|
  {
    if |text| >= |key| {
      assert !OccursAt(key, text, 0);
      var tail := text[1..];
      assert text == [text[0]] + tail;
      forall j | 0 <= j <= |tail| - |key|
        ensures !OccursAt(key, tail, j)
      {
        OccursInSuffix(key, [text[0]], tail, j);
      }
      ReplaceAllWithoutOccurrence(key, rep, tail);
    }
  }

  /**
   Rewriting the leftmost occurrence and then every occurrence, with the same
   Cyrillic-free string, is the same as rewriting every occurrence.
   */
  lemma ReplaceAllAfterFirst(key: string, c: string, text: string)
    requires |key| > 0 && AllCyrillic(key) && CyrillicFree(c)
    requires |c| > 0 || |key| == 1
    requires Contains(key, text)
    ensures ReplaceAll(key, c, ReplaceFirst(key, c, text)) == ReplaceAll(key, c, text)
  {
    var i := IndexOf(key, text);
    ReplaceFirstAt(key, c, text, i);
    ReplaceAllAtLeftmost(key, c, text, i);
    NoOccurrenceBeforeLeftmost(key, text, i);
    ReplaceAllAfterSeparator(key, c, text[..i], text[i + |key|..]);
  }

  /** `ReplaceFirst` at a named leftmost occurrence. */
  lemma ReplaceFirstAt(key: string, rep: string, text: string, i: int)
    requires IsLeftmost(key, text, i)
    ensures ReplaceFirst(key, rep, text) == text[..i] + rep + text[i + |key|..]
  {
  }

  /** Past a prefix without occurrences and a separator, the scan rewrites only the suffix. */
  lemma ReplaceAllAfterSeparator(key: string, c: string, a: string, b: string)
    requires |key| > 0 && AllCyrillic(key) && CyrillicFree(c)
    requires |c| > 0 || |key| == 1
    requires !Contains(key, a)
    ensures ReplaceAll(key, c, a + c + b) == a + c + ReplaceAll(key, c, b)
  {
    if Contains(key, b) {
      var q := IndexOf(key, b);
      assert IsLeftmost(key, (a + c) + b, |a + c| + q) by {
        OccurrencesAfterSeparator(key, a, c, b);
      }
      ReplaceAllPastPrefix(key, c, a + c, b, q);
    } else {
      assert !Contains(key, a + c + b) by {
        OccurrencesAfterSeparator(key, a, c, b);
      }
      ReplaceAllWithoutOccurrence(key, c, b);
      ReplaceAllWithoutOccurrence(key, c, a + c + b);
    }
  }

  /** When the leftmost occurrence in `u + b` is the leftmost one of `b`, the scan copies `u`. */
  lemma ReplaceAllPastPrefix(key: string, c: string, u: string, b: string, q: int)
    requires |key| > 0 && IsLeftmost(key, b, q) && IsLeftmost(key, u + b, |u| + q)
    ensures ReplaceAll(key, c, u + b) == u + ReplaceAll(key, c, b)
  {
    RewriteAtLeftmost(key, c, b, q, b[..q], b[q + |key|..]);
    RewriteAfterPrefix(key, c, u, b, q);
    Regroup(u, b[..q], c, ReplaceAll(key, c, b[q + |key|..]));
  }

  lemma Regroup(u: string, x: string, c: string, r: string)
    ensures u + x + c + r == u + (x + c + r)
  {
  }

  lemma RewriteAfterPrefix(key: string, c: string, u: string, b: string, q: nat)
    requires |key| > 0 && IsLeftmost(key, u + b, |u| + q) && q + |key| <= |b|
    ensures ReplaceAll(key, c, u + b) == u + b[..q] + c + ReplaceAll(key, c, b[q + |key|..])
  {
    SplitAfterPrefix(u, b, q);
    SplitAfterPrefix(u, b, q + |key|);
    RewriteAtLeftmost(key, c, u + b, |u| + q, u + b[..q], b[q + |key|..]);
  }

  /** `ReplaceAllAtLeftmost` with the pieces around the occurrence named. */
  lemma RewriteAtLeftmost(key: string, c: string, t: string, p: int, pre: string, post: string)
    requires |key| > 0 && IsLeftmost(key, t, p) && t[..p] == pre && t[p + |key|..] == post
    ensures ReplaceAll(key, c, t) == pre + c + ReplaceAll(key, c, post)
  {
    ReplaceAllAtLeftmost(key, c, t, p);
  }

  /** Slicing past a prefix `u` slices the rest. */
  lemma SplitAfterPrefix(u: string, b: string, k: int)
    requires 0 <= k <= |b|
    ensures (u + b)[..|u| + k] == u + b[..k]
    ensures (u + b)[|u| + k..] == b[k..]
  {
  }

  /**
   Rewriting the leftmost occurrence of an all-Cyrillic key with Cyrillic-free
   text removes exactly the key's Cyrillic characters and adds none.
   */
  lemma ReplaceFirstLatinises(key: string, c: string, text: string)
    requires AllCyrillic(key) && CyrillicFree(c) && Contains(key, text)
    ensures CyrillicCount(ReplaceFirst(key, c, text)) == CyrillicCount(text) - |key|
    ensures forall x | IsCyrillic(x) && x !in text :: x !in ReplaceFirst(key, c, text)
  {
    var i := IndexOf(key, text);
    var a, b := text[..i], text[i + |key|..];
    assert text == a + key + b;
    assert ReplaceFirst(key, c, text) == a + c + b;
    CyrillicCountConcat(a + key, b);
    CyrillicCountConcat(a, key);
    CyrillicCountConcat(a + c, b);
    CyrillicCountConcat(a, c);
    CyrillicCountOfAll(key);
    CyrillicCountOfFree(c);
    forall x | IsCyrillic(x) && x !in text
      ensures x !in a + c + b
    {
      assert x !in a && x !in b;
    }
  }

  /* ---------------------------------------------------------------------- */
  /* Letters and case                                                        */
  /* ---------------------------------------------------------------------- */

  predicate IsUpperLetter(c: char) {
    'A' <= c <= 'Z' || '\U{0400}' <= c <= '\U{042F}' || c == '\U{0490}'
  }

  predicate IsLowerLetter(c: char) {
    'a' <= c <= 'z' || '\U{0430}' <= c <= '\U{045F}' || c == '\U{0491}'
  }

  /** Python's `c.isalpha()` over the modelled alphabet; every letter is cased. */
  predicate IsLetter(c: char) {
    IsUpperLetter(c) || IsLowerLetter(c)
  }

  /** Python's `s.isupper()`: some cased character, and no lower-case one. */
  predicate IsUpperText(s: string) {
    (exists i | 0 <= i < |s| :: IsUpperLetter(s[i])) && forall i | 0 <= i < |s| :: !IsLowerLetter(s[i])
  }

  /** `IsUpperText` read through the characters of `s` rather than its indices. */
  lemma UpperTextByMembership(s: string)
    ensures IsUpperText(s) <==>
      (exists x | x in s :: IsUpperLetter(x)) && forall x | x in s :: !IsLowerLetter(x)
  {
    if exists x | x in s :: IsUpperLetter(x) {
      var x :| x in s && IsUpperLetter(x);
      var i :| 0 <= i < |s| && s[i] == x;
    }
  }

  /** `''.join(c if c.isalpha() else '' for c in s)`: the letters of `s`, in order. */
  function LettersOnly(s: string): (r: string)
    ensures |r| <= |s|
    ensures forall i | 0 <= i < |r| :: IsLetter(r[i])
    ensures forall c | IsLetter(c) :: c in r <==> c in s
  {
    if s == [] then []
    else
      var rest := LettersOnly(s[1..]);
      assert s == [s[0]] + s[1..];
      if IsLetter(s[0]) then [s[0]] + rest else rest
  }

  /** The projection works character by character: it distributes over concatenation. */
  lemma {:induction false} LettersOnlyConcat(a: string, b: string)
    ensures LettersOnly(a + b) == LettersOnly(a) + LettersOnly(b)
  {
    if a == [] {
      assert a + b == b;
    } else {
      assert (a + b)[0] == a[0];
      assert (a + b)[1..] == a[1..] + b;
      LettersOnlyConcat(a[1..], b);
    }
  }

  /** One character is kept exactly when it is a letter. */
  lemma LettersOnlyChar(c: char)
    ensures LettersOnly([c]) == if IsLetter(c) then [c] else []
  {
    assert [c][1..] == [];
  }

  /** A letter key found in the buffer is still found in its letters-only projection. */
  lemma LetterKeySurvivesProjection(key: string, text: string)
    requires |key| == 1 && IsLetter(key[0]) && Contains(key, text)
    ensures Contains(key, LettersOnly(text))
  {
    ContainsSingle(key, text);
    ContainsSingle(key, LettersOnly(text));
  }
}

=== FILE: substitute.dfy ===
/**
 The `substitute` decorator: while the key is still somewhere in the working
 buffer, ask the rule's context function for a candidate index and rewrite
 the leftmost occurrence of the key with that candidate. A rule's group is
 applied key by key in table order. The loop ends because every candidate is
 free of Cyrillic, so each pass removes the key's Cyrillic characters.
 */
module Substitute {
  import opened Strings
  import opened Rules

  /** One pass of the loop body: `text.replace(key, candidates[choice], 1)`. */
  function Step(rule: Rule, e: Entry, text: string): (r: string)
    requires e in Table(rule) && Contains(e.key, text)
    ensures CyrillicCount(r) == CyrillicCount(text) - |e.key|
    ensures forall x | IsCyrillic(x) && x !in text :: x !in r
  {
    EntryShape(rule, e);
    var c := e.candidates[Choose(rule, e, text)];
    ReplaceFirstLatinises(e.key, c, text);
    ReplaceFirst(e.key, c, text)
  }

  /** The step rewrites the leftmost occurrence with the chosen candidate and keeps the rest. */
  lemma StepAt(rule: Rule, e: Entry, text: string, i: int)
    requires e in Table(rule) && IsLeftmost(e.key, text, i)
    ensures Contains(e.key, text)
    ensures Step(rule, e, text) == text[..i] + e.candidates[Choose(rule, e, text)] + text[i + |e.key|..]
  {
    assert 0 <= i <= |text| - |e.key| && OccursAt(e.key, text, i);
  }

  /**
   A key the rule's loop can never re-create: all Cyrillic, and a single
   character when the rule may erase (a bigraph could be closed up by an
   erasure).
   */
  predicate Protected(rule: Rule, k: string) {
    |k| > 0 && AllCyrillic(k) && (|k| == 1 || rule != Softener)
  }

  /**
   The decorated method: replace until the key is absent. The result holds no
   occurrence of the key, no Cyrillic character the input lacked, and no
   protected key the input lacked.
   */
  function ApplyKey(rule: Rule, e: Entry, text: string): (r: string)
    requires e in Table(rule)
    ensures !Contains(e.key, r)
    ensures !Contains(e.key, text) ==> r == text
    ensures forall x | IsCyrillic(x) && x !in text :: x !in r
    ensures forall k | Protected(rule, k) && !Contains(k, text) :: !Contains(k, r)
    decreases CyrillicCount(text)
  {
    EntryShape(rule, e);
    if Contains(e.key, text) then
      var next := Step(rule, e, text);
      assert forall k | Protected(rule, k) && !Contains(k, text) :: !Contains(k, next) by {
        forall k | Protected(rule, k) && !Contains(k, text)
          ensures !Contains(k, next)
        {
          StepKeepsAbsent(rule, e, k, text);
        }
      }
      ApplyKey(rule, e, next)
    else text
  }

  /** A protected key absent before one step is absent after it. */
  lemma StepKeepsAbsent(rule: Rule, e: Entry, k: string, text: string)
    requires e in Table(rule) && Contains(e.key, text) && Protected(rule, k) && !Contains(k, text)
    ensures !Contains(k, Step(rule, e, text))
  {
    var c := StepSplices(rule, e, text);
    SpliceKeepsAbsent(k, e.key, text, IndexOf(e.key, text), c, Step(rule, e, text));
  }

  /** `out` is `text` with `c` spliced over the occurrence of `key` at `i`. */
  ghost predicate SplicedAt(key: string, text: string, i: int, c: string, out: string) {
    OccursAt(key, text, i) && out == text[..i] + c + text[i + |key|..]
  }

  /** Splicing a Cyrillic-free string over an occurrence brings in no Cyrillic key. */
  lemma SpliceKeepsAbsent(k: string, key: string, text: string, i: int, c: string, out: string)
    requires |k| > 0 && AllCyrillic(k) && CyrillicFree(c) && (|c| > 0 || |k| == 1)
    requires !Contains(k, text) && SplicedAt(key, text, i, c, out)
    ensures !Contains(k, out)
  {
    var a, b := text[..i], text[i + |key|..];
    assert text == a + key + b by {
      assert text[i..i + |key|] == key;
    }
    AbsentStaysAbsent(k, a, key, c, b);
  }

  /** A step splices one Cyrillic-free candidate, empty only for the softener, over the leftmost occurrence. */
  lemma StepSplices(rule: Rule, e: Entry, text: string) returns (c: string)
    requires e in Table(rule) && Contains(e.key, text)
    ensures CyrillicFree(c) && (|c| > 0 || rule == Softener)
    ensures SplicedAt(e.key, text, IndexOf(e.key, text), c, Step(rule, e, text))
  {
    EntryShape(rule, e);
    c := e.candidates[Choose(rule, e, text)];
  }

  /** Every key of a group is protected for that group's rule. */
  lemma KeysProtected(rule: Rule, e: Entry)
    requires e in Table(rule)
    ensures Protected(rule, e.key)
  {
    EntryShape(rule, e);
  }

  /**
   The keys `entries` applied in order. Afterwards none of them occurs, no key
   of the rule that was absent has come back, and no Cyrillic character has
   been added.
   */
  function ApplyEntries(rule: Rule, entries: seq<Entry>, text: string): (r: string)
    requires forall e | e in entries :: e in Table(rule)
    ensures forall e | e in entries :: !Contains(e.key, r)
    ensures forall e | e in Table(rule) && !Contains(e.key, text) :: !Contains(e.key, r)
    ensures (forall e | e in entries :: !Contains(e.key, text)) ==> r == text
    ensures forall x | IsCyrillic(x) && x !in text :: x !in r
    decreases |entries|
  {
    if entries == [] then text
    else
      var t := ApplyKey(rule, entries[0], text);
      assert forall e | e in Table(rule) && !Contains(e.key, text) :: !Contains(e.key, t) by {
        forall e | e in Table(rule) && !Contains(e.key, text)
          ensures !Contains(e.key, t)
        {
          KeysProtected(rule, e);
        }
      }
      ApplyEntries(rule, entries[1..], t)
  }

  /** One rule's whole group, applied in table order. */
  function ApplyRule(rule: Rule, text: string): (r: string)
    ensures forall e | e in Table(rule) :: !Contains(e.key, r)
    ensures (forall e | e in Table(rule) :: !Contains(e.key, text)) ==> r == text
    ensures forall x | IsCyrillic(x) && x !in text :: x !in r
  {
    ApplyEntries(rule, Table(rule), text)
  }
}

=== FILE: unambiguous.dfy ===
/**
 The context-free half of the transliteration: `LatynkaMapsa.UNAMBIGUOUS_CHAR_TAB`,
 applied once to the whole text with `str.translate`. Every key is a letter
 of the Ukrainian alphabet with exactly one Latin rendering; every other
 character, including the ambiguous letters the rules resolve later, is
 copied unchanged.
 */
module Unambiguous {
  import opened Strings

  /** `UNAMBIGUOUS_CHAR_TAB`: 21 capital and 23 small letters, each with its one rendering. */
  function Lookup(c: char): Option<string> {
    match c
    case 'А' => Some("A")
    case 'Б' => Some("B")
    case 'Г' => Some("H")
    case 'Ґ' => Some("G")
    case 'Д' => Some("D")
    case 'Е' => Some("E")
    case 'З' => Some("Z")
    case 'И' => Some("Y")
    case 'І' => Some("I")
    case 'К' => Some("K")
    case 'Л' => Some("L")
    case 'М' => Some("M")
    case 'Н' => Some("N")
    case 'О' => Some("O")
    case 'П' => Some("P")
    case 'Р' => Some("R")
    case 'С' => Some("S")
    case 'Т' => Some("T")
    case 'У' => Some("U")
    case 'Ф' => Some("F")
    case 'Ц' => Some("C")
    case 'а' => Some("a")
    case 'б' => Some("b")
    case 'г' => Some("h")
    case 'ґ' => Some("g")
    case 'д' => Some("d")
    case 'е' => Some("e")
    case 'з' => Some("z")
    case 'и' => Some("y")
    case 'і' => Some("i")
    case 'к' => Some("k")
    case 'л' => Some("l")
    case 'м' => Some("m")
    case 'н' => Some("n")
    case 'о' => Some("o")
    case 'п' => Some("p")
    case 'р' => Some("r")
    case 'с' => Some("s")
    case 'т' => Some("t")
    case 'у' => Some("u")
    case 'ф' => Some("f")
    case 'х' => Some("ch")
    case 'ц' => Some("c")
    case 'щ' => Some("shj")
    case _ => None
  }

  /** `c` is a key of the table. */
  predicate IsKey(c: char) {
    Lookup(c).Some?
  }

  /**
   The receiver string of the `maketrans` call. `str.maketrans` is static and
   ignores it: the keys come from the dict alone. It happens to list exactly
   the same 44 characters.
   */
  const MaketransKeys: string := "АБГҐДЕЗИІКЛМНОПРСТУФЦабгґдезиіклмнопрстуфхцщ"

  /** The keys of the dict are exactly the 44 characters of the (ignored) receiver string. */
  lemma KeysAreMaketransKeys(c: char)
    ensures IsKey(c) <==> c in MaketransKeys
  {
    KeysAreListed(c);
    MaketransKeysChunks();
    MaketransKeysFirst(c);
    MaketransKeysSecond(c);
    MaketransKeysThird(c);
    MaketransKeysFourth(c);
  }

  lemma KeysAreListed(c: char)
    ensures IsKey(c) ==> c in MaketransKeys
  {
  }

  /*
   The listing is checked in four runs of eleven characters. Each run is a
   small case analysis on `Lookup`; all 44 characters at once are not.
   */
  lemma MaketransKeysChunks()
    ensures MaketransKeys == "АБГҐДЕЗИІКЛ" + "МНОПРСТУФЦа" + "бгґдезиіклм" + "нопрстуфхцщ"
  {
  }

  lemma MaketransKeysFirst(c: char)
    ensures c in "АБГҐДЕЗИІКЛ" ==> IsKey(c)
  {
  }

  lemma MaketransKeysSecond(c: char)
    ensures c in "МНОПРСТУФЦа" ==> IsKey(c)
  {
  }

  lemma MaketransKeysThird(c: char)
    ensures c in "бгґдезиіклм" ==> IsKey(c)
  {
  }

  lemma MaketransKeysFourth(c: char)
    ensures c in "нопрстуфхцщ" ==> IsKey(c)
  {
  }

  /** Every key is a Cyrillic letter and every rendering is non-empty and Cyrillic-free. */
  lemma TableIsLatinising(c: char)
    requires IsKey(c)
    ensures IsCyrillic(c) && IsLetter(c)
    ensures |Lookup(c).value| > 0 && CyrillicFree(Lookup(c).value)
  {
  }

  /** The rendering of one character: its table entry, or the character itself. */
  function MapChar(c: char): (r: string)
    ensures |r| > 0
    ensures r == [c] <==> !IsKey(c)
  {
    match Lookup(c)
    case Some(latin) => latin
    case None => [c]
  }

  /** A rendering holds no key and keeps a Cyrillic character exactly when it is not a key. */
  lemma MapCharIsLatinising(c: char)
    ensures NoTableKey(MapChar(c))
    ensures forall x | IsCyrillic(x) :: x in MapChar(c) <==> x == c && !IsKey(x)
  {
    KeysAreCyrillic();
    if IsKey(c) {
      TableIsLatinising(c);
      var latin := Lookup(c).value;
      assert MapChar(c) == latin;
      assert forall i | 0 <= i < |latin| :: !IsCyrillic(latin[i]);
    } else {
      assert MapChar(c) == [c];
    }
  }

  lemma KeysAreCyrillic()
    ensures forall x | IsKey(x) :: IsCyrillic(x)
  {
    forall x | IsKey(x)
      ensures IsCyrillic(x)
    {
      TableIsLatinising(x);
    }
  }

  predicate NoTableKey(s: string) {
    forall i | 0 <= i < |s| :: !IsKey(s[i])
  }

  /** `text.translate(UNAMBIGUOUS_CHAR_TAB)`. */
  function Translate(s: string): (r: string)
    ensures NoTableKey(r)
    ensures NoTableKey(s) ==> r == s
    ensures forall x | IsCyrillic(x) :: x in r <==> x in s && !IsKey(x)
  {
    if s == [] then []
    else
      var head, rest := MapChar(s[0]), Translate(s[1..]);
      assert s == [s[0]] + s[1..];
      MapCharIsLatinising(s[0]);
      head + rest
  }

  /** Characters are rewritten independently of one another. */
  lemma {:induction false} TranslateConcat(a: string, b: string)
    ensures Translate(a + b) == Translate(a) + Translate(b)
  {
    if a == [] {
      assert a + b == b;
    } else {
      assert (a + b)[0] == a[0];
      assert (a + b)[1..] == a[1..] + b;
      TranslateConcat(a[1..], b);
    }
  }

  /** A single character becomes its table rendering, or stays as it is. */
  lemma TranslateChar(c: char)
    ensures IsKey(c) ==> Translate([c]) == Lookup(c).value
    ensures !IsKey(c) ==> Translate([c]) == [c]
  {
    assert [c][1..] == [];
  }

  /** Translating twice is translating once. */
  lemma TranslateIdempotent(s: string)
    ensures Translate(Translate(s)) == Translate(s)
  {
  }
}

=== FILE: worked_groups.dfy ===
/**
 The ambiguity groups on the translated worked words: which groups find
 nothing, and the one rewrite each of the others makes.
 */
module WorkedGroups {
  import opened Strings
  import opened Rules
  import opened Substitute
  import opened Resolvers
  import opened Romanizer

  /** Only Latin letters below the Cyrillic block: nothing for the groups to find. */
  lemma LatinText(s: string)
    requires forall c | c in s :: c < '\U{0400}'
    ensures CyrillicFree(s)
  {
    forall i | 0 <= i < |s|
      ensures !IsCyrillic(s[i])
    {
      assert s[i] in s;
    }
  }

  /** No group changes a Cyrillic-free buffer. */
  lemma CyrillicFreeKeeps(rule: Rule, text: string)
    requires CyrillicFree(text)
    ensures NoKeyOccurs([rule], text) && ApplyRule(rule, text) == text
  {
    forall e | e in Table(rule)
      ensures !Contains(e.key, text)
    {
      EntryShape(rule, e);
      CyrillicFreeHasNoCyrillicKey(e.key, text);
    }
  }

  /** The one-letter keys of a group, as a string. */
  function KeyLetters(rule: Rule): string {
    match rule
    case Doubles => ""
    case Sibilants => "жчшЖЧШЩХ"
    case VOrW => "вВ"
    case VowelsSmall => "яїєю"
    case VowelsCapital => "ЯЄЮЇ"
    case YOrI => "йЙ"
    case Softener => "ьЬ"
  }

  /** Every key of a one-letter group is one of its key letters. */
  lemma KeyLettersCover(rule: Rule, e: Entry)
    requires rule != Doubles && e in Table(rule)
    ensures |e.key| == 1 && e.key[0] in KeyLetters(rule)
  {
    EntryShape(rule, e);
  }

  /** Within a group the key determines the entry. */
  lemma KeyDetermines(rule: Rule, e: Entry, f: Entry)
    requires e in Table(rule) && f in Table(rule) && e.key == f.key
    ensures e == f
  {
    TableKeysAreDistinct(rule);
    var i :| 0 <= i < |Table(rule)| && Table(rule)[i] == e;
    var j :| 0 <= j < |Table(rule)| && Table(rule)[j] == f;
    assert i == j;
  }

  /** No key letter of the group is in `text`. */
  predicate NoKeyLetter(rule: Rule, text: string) {
    forall i | 0 <= i < |text| :: text[i] !in KeyLetters(rule)
  }

  /** The only key letter of the group in `text`, if any, is `c`. */
  predicate OnlyKeyLetter(rule: Rule, c: char, text: string) {
    forall i | 0 <= i < |text| :: text[i] in KeyLetters(rule) ==> text[i] == c
  }

  /** `e`'s key occurs in `text` and one step of the group's loop turns `text` into `r`. */
  predicate StepsTo(rule: Rule, e: Entry, text: string, r: string)
    requires e in Table(rule)
  {
    Contains(e.key, text) && Step(rule, e, text) == r
  }

  /** A one-letter group none of whose letters is in the buffer changes nothing. */
  lemma LetterGroupKeeps(rule: Rule, text: string)
    requires rule != Doubles && NoKeyLetter(rule, text)
    ensures NoKeyOccurs([rule], text) && ApplyRule(rule, text) == text
  {
    forall e | e in Table(rule)
      ensures !Contains(e.key, text)
    {
      KeyLettersCover(rule, e);
      ContainsSingle(e.key, text);
    }
  }

  /** No two Cyrillic characters of `text` stand side by side. */
  predicate NoCyrillicPair(text: string) {
    forall i | 0 <= i < |text| - 1 :: !IsCyrillic(text[i]) || !IsCyrillic(text[i + 1])
  }

  /** With no two Cyrillic characters side by side, the doubles change nothing. */
  lemma DoublesKeep(text: string)
    requires NoCyrillicPair(text)
    ensures NoKeyOccurs([Doubles], text) && ApplyRule(Doubles, text) == text
  {
    forall e | e in Table(Doubles)
      ensures !Contains(e.key, text)
    {
      EntryShape(Doubles, e);
      forall i | 0 <= i <= |text| - 2
        ensures !OccursAt(e.key, text, i)
      {
        PairNotKeyAt(e.key, text, i);
      }
    }
  }

  /** A two-letter Cyrillic key cannot start where the text has a non-Cyrillic character in the first two places. */
  lemma PairNotKeyAt(key: string, text: string, i: int)
    requires |key| == 2 && AllCyrillic(key) && 0 <= i <= |text| - 2
    requires !IsCyrillic(text[i]) || !IsCyrillic(text[i + 1])
    ensures !OccursAt(key, text, i)
  {
    assert key[0] in key && key[1] in key;
    assert text[i..i + 2][0] == text[i] && text[i..i + 2][1] == text[i + 1];
  }

  /** The only two Cyrillic characters side by side in `text` start at `p`. */
  predicate CyrillicPairOnlyAt(text: string, p: int) {
    forall i | 0 <= i < |text| - 1 && i != p :: !IsCyrillic(text[i]) || !IsCyrillic(text[i + 1])
  }

  /** `pair` is no key of the doubles. */
  predicate NotADoublesKey(pair: string) {
    forall e | e in Table(Doubles) :: e.key != pair
  }

  /**
   With one pair of Cyrillic characters side by side, at `p`, which is no
   key of the doubles, the doubles change nothing.
   */
  lemma DoublesKeepBut(text: string, p: int)
    requires 0 <= p < |text| - 1 && CyrillicPairOnlyAt(text, p) && NotADoublesKey(text[p..p + 2])
    ensures NoKeyOccurs([Doubles], text) && ApplyRule(Doubles, text) == text
  {
    forall e | e in Table(Doubles)
      ensures !Contains(e.key, text)
    {
      EntryShape(Doubles, e);
      forall i | 0 <= i <= |text| - 2
        ensures !OccursAt(e.key, text, i)
      {
        if i != p {
          PairNotKeyAt(e.key, text, i);
        }
      }
    }
  }

  /**
   When `e` is the only entry whose key occurs, and its loop leaves no key of
   the group behind, running the entries in order gives what `e`'s loop gives.
   */
  lemma OnlyEntryFires(rule: Rule, entries: seq<Entry>, e: Entry, text: string, r: string)
    requires forall f | f in entries :: f in Table(rule)
    requires e in entries && forall f | f in entries && f != e :: !Contains(f.key, text)
    requires e in Table(rule) && ApplyKey(rule, e, text) == r && NoKeyOccurs([rule], r)
    ensures ApplyEntries(rule, entries, text) == r
  {
    forall f | f in Table(rule)
      ensures !Contains(f.key, r)
    {
      assert rule in [rule];
    }
    OnlyEntryFiresIn(rule, entries, e, text, r);
  }

  lemma {:induction false} OnlyEntryFiresIn(rule: Rule, entries: seq<Entry>, e: Entry, text: string, r: string)
    requires forall f | f in entries :: f in Table(rule)
    requires e in entries && forall f | f in entries && f != e :: !Contains(f.key, text)
    requires ApplyKey(rule, e, text) == r && forall f | f in Table(rule) :: !Contains(f.key, r)
    ensures ApplyEntries(rule, entries, text) == r
    decreases |entries|
  {
    if entries[0] != e {
      assert e in entries[1..];
      OnlyEntryFiresIn(rule, entries[1..], e, text, r);
    }
  }

  /**
   A one-letter group whose only letter in the buffer is `e`'s, where one step
   leaves none of the group's letters: the group makes exactly that step.
   */
  lemma LetterFiresOnce(rule: Rule, e: Entry, c: char, text: string, r: string)
    requires rule != Doubles && e in Table(rule) && e.key == [c]
    requires OnlyKeyLetter(rule, c, text) && StepsTo(rule, e, text, r) && NoKeyLetter(rule, r)
    ensures ApplyRule(rule, text) == r
  {
    forall f | f in Table(rule) && f != e
      ensures !Contains(f.key, text)
    {
      KeyLettersCover(rule, f);
      if f.key == e.key {
        KeyDetermines(rule, e, f);
      }
      ContainsSingle(f.key, text);
    }
    LetterGroupKeeps(rule, r);
    assert ApplyKey(rule, e, text) == r;
    OnlyEntryFires(rule, Table(rule), e, text, r);
  }

  // лев, translated "leв"

  lemma DoublesOnLev()
    ensures ApplyRule(Doubles, "leв") == "leв"
  {
    LevHasNoPair();
    DoublesKeep("leв");
  }

  lemma LevHasNoPair()
    ensures NoCyrillicPair("leв")
  {
  }

  lemma SibilantsOnLev()
    ensures ApplyRule(Sibilants, "leв") == "leв"
  {
    LetterGroupKeeps(Sibilants, "leв");
  }

  /** The `в` ends the buffer, so the `_v_or_w` step renders it `w`. */
  lemma VOrWStepOnLev()
    ensures StepsTo(VOrW, Entry("в", ["v", "w"]), "leв", "lew")
  {
    var e := Entry("в", ["v", "w"]);
    assert e == Table(VOrW)[0];
    assert "leв"[..2] == "le";
    SingleLeftmost(e.key, "leв", 2);
    VOrWStep(e, "leв", 2);
  }

  lemma VOrWOnLev()
    ensures ApplyRule(VOrW, "leв") == "lew"
  {
    var e := Entry("в", ["v", "w"]);
    assert e == Table(VOrW)[0];
    VOrWStepOnLev();
    LetterFiresOnce(VOrW, e, 'в', "leв", "lew");
  }

  // жж, translated "жж"

  /** `жж` is a key of the doubles, rendered `zhh` as a whole. */
  lemma DoublesOnZhzh()
    ensures ApplyRule(Doubles, "жж") == "zhh"
  {
    var e := Entry("жж", ["zhh"]);
    assert e == Table(Doubles)[6];
    ZhzhOnlyKey();
    FixedChoiceIsReplaceAll(Doubles, e, "жж");
    ZhzhReplaced();
    ZhhHoldsNoDouble();
    OnlyEntryFires(Doubles, Table(Doubles), e, "жж", "zhh");
  }

  /** No other key of the doubles occurs in `жж`. */
  lemma ZhzhOnlyKey()
    ensures forall f | f in Table(Doubles) && f != Entry("жж", ["zhh"]) :: !Contains(f.key, "жж")
  {
    var e := Entry("жж", ["zhh"]);
    assert e == Table(Doubles)[6];
    forall f | f in Table(Doubles) && f != e
      ensures !Contains(f.key, "жж")
    {
      EntryShape(Doubles, f);
      if f.key == e.key {
        KeyDetermines(Doubles, e, f);
      }
      assert "жж"[0..2] == "жж";
    }
  }

  lemma ZhzhReplaced()
    ensures ReplaceAll("жж", "zhh", "жж") == "zhh"
  {
    ReplaceAllAtStart("жж", "zhh", "жж");
    assert "жж"[2..] == [];
  }

  lemma ZhhHoldsNoDouble()
    ensures NoKeyOccurs([Doubles], "zhh")
  {
    LatinText("zhh");
    CyrillicFreeKeeps(Doubles, "zhh");
  }

  // мальва, translated "malьвa"

  /** `ьв` is no key of the doubles. */
  lemma DoublesOnMalva()
    ensures ApplyRule(Doubles, "malьвa") == "malьвa"
  {
    MalvaPairs();
    DoublesKeepBut("malьвa", 3);
  }

  lemma MalvaPairs()
    ensures CyrillicPairOnlyAt("malьвa", 3) && NotADoublesKey("malьвa"[3..5])
  {
    assert "malьвa"[3..5] == "ьв";
    SoftVeIsNoDoublesKey();
  }

  lemma SoftVeIsNoDoublesKey()
    ensures NotADoublesKey("ьв")
  {
    SoftVeNotInHead();
    SoftVeNotInTail();
  }

  lemma SoftVeNotInHead()
    ensures forall e | e in DoublesHead :: e.key != "ьв"
  {
  }

  lemma SoftVeNotInTail()
    ensures forall e | e in DoublesTail :: e.key != "ьв"
  {
  }

  lemma SibilantsOnMalva()
    ensures ApplyRule(Sibilants, "malьвa") == "malьвa"
  {
    LetterGroupKeeps(Sibilants, "malьвa");
  }

  /** The `в` precedes the vowel `a`, so the `_v_or_w` step renders it `v`. */
  lemma VOrWStepOnMalva()
    ensures StepsTo(VOrW, Entry("в", ["v", "w"]), "malьвa", "malьva")
  {
    var e := Entry("в", ["v", "w"]);
    assert e == Table(VOrW)[0];
    MalvaLeftmostVe();
    VOrWStep(e, "malьвa", 4);
    MalvaVeBeforeVowel();
    MalvaSplice();
  }

  lemma MalvaVeBeforeVowel()
    ensures !EndsWith("malьвa", "в") && "malьвa"[5] in VowelLike
  {
    assert "malьвa"[5..] == "a";
  }

  lemma MalvaSplice()
    ensures "malьвa"[..4] + "v" + "malьвa"[5..] == "malьva"
  {
    assert "malьвa"[..4] == "malь" && "malьвa"[5..] == "a";
  }

  lemma MalvaLeftmostVe()
    ensures IsLeftmost("в", "malьвa", 4)
  {
    assert "malьвa"[..4] == "malь";
    SingleLeftmost("в", "malьвa", 4);
  }

  lemma VOrWOnMalva()
    ensures ApplyRule(VOrW, "malьвa") == "malьva"
  {
    var e := Entry("в", ["v", "w"]);
    assert e == Table(VOrW)[0];
    VOrWStepOnMalva();
    VOrWLettersOnMalva();
    LetterFiresOnce(VOrW, e, 'в', "malьвa", "malьva");
  }

  lemma VOrWLettersOnMalva()
    ensures OnlyKeyLetter(VOrW, 'в', "malьвa") && NoKeyLetter(VOrW, "malьva")
  {
  }

  /** Only the soft sign is left, and only the softener has it as a key. */
  lemma VowelsSmallOnMalva()
    ensures ApplyRule(VowelsSmall, "malьva") == "malьva"
  {
    LetterGroupKeeps(VowelsSmall, "malьva");
  }

  lemma VowelsCapitalOnMalva()
    ensures ApplyRule(VowelsCapital, "malьva") == "malьva"
  {
    LetterGroupKeeps(VowelsCapital, "malьva");
  }

  lemma YOrIOnMalva()
    ensures ApplyRule(YOrI, "malьva") == "malьva"
  {
    LetterGroupKeeps(YOrI, "malьva");
  }

  /** The softener drops the soft sign. */
  lemma SoftenerOnMalva()
    ensures ApplyRule(Softener, "malьva") == "malva"
  {
    SoftenerDropsSoftSigns("malьva");
    MalvaDropped();
  }

  lemma MalvaDropped()
    ensures DropSoftSigns("malьva") == "malva"
  {
    assert "malьva"[1..] == "alьva" && "alьva"[1..] == "lьva" && "lьva"[1..] == "ьva";
    assert "ьva"[1..] == "va" && "va"[1..] == "a" && "a"[1..] == [];
  }

  // йогурт, translated "йohurt"

  /** Only `й` is left, and only `_y_or_i` has it as a key. */
  lemma DoublesOnYogurt()
    ensures ApplyRule(Doubles, "йohurt") == "йohurt"
  {
    YogurtHasNoPair();
    DoublesKeep("йohurt");
  }

  lemma YogurtHasNoPair()
    ensures NoCyrillicPair("йohurt")
  {
  }

  lemma SibilantsOnYogurt()
    ensures ApplyRule(Sibilants, "йohurt") == "йohurt"
  {
    LetterGroupKeeps(Sibilants, "йohurt");
  }

  lemma VOrWOnYogurt()
    ensures ApplyRule(VOrW, "йohurt") == "йohurt"
  {
    LetterGroupKeeps(VOrW, "йohurt");
  }

  lemma VowelsSmallOnYogurt()
    ensures ApplyRule(VowelsSmall, "йohurt") == "йohurt"
  {
    LetterGroupKeeps(VowelsSmall, "йohurt");
  }

  lemma VowelsCapitalOnYogurt()
    ensures ApplyRule(VowelsCapital, "йohurt") == "йohurt"
  {
    LetterGroupKeeps(VowelsCapital, "йohurt");
  }

  /** The `й` starts the buffer, so the `_y_or_i` step renders it `y`. */
  lemma YOrIStepOnYogurt()
    ensures StepsTo(YOrI, Entry("й", ["y", "i", "'y"]), "йohurt", "yohurt")
  {
    var e := Entry("й", ["y", "i", "'y"]);
    assert e == Table(YOrI)[0];
    SingleLeftmost(e.key, "йohurt", 0);
    YOrIStep(e, "йohurt", 0);
    assert "йohurt"[1..] == "ohurt";
  }

  lemma YOrIOnYogurt()
    ensures ApplyRule(YOrI, "йohurt") == "yohurt"
  {
    var e := Entry("й", ["y", "i", "'y"]);
    assert e == Table(YOrI)[0];
    YOrIStepOnYogurt();
    YOrILettersOnYogurt();
    LetterFiresOnce(YOrI, e, 'й', "йohurt", "yohurt");
  }

  lemma YOrILettersOnYogurt()
    ensures OnlyKeyLetter(YOrI, 'й', "йohurt") && NoKeyLetter(YOrI, "yohurt")
  {
  }
}

=== FILE: worked_translation.dfy ===
/**
 The unambiguous table on the five worked words, assembled from
 `TranslateChar` and `TranslateConcat` one small piece at a time. Letters the
 table does not map (`в`, `ь`, `й`, `ж`) pass through for the ambiguity groups.
 */
module WorkedTranslation {
  import opened Strings
  import opened Unambiguous

  /** A key of the table translates to its rendering. */
  lemma KeyTranslated(c: char, r: string)
    requires Lookup(c) == Some(r)
    ensures Translate([c]) == r
  {
    TranslateChar(c);
  }

  /** A character the table does not map passes through. */
  lemma Passes(c: char)
    requires Lookup(c) == None
    ensures Translate([c]) == [c]
  {
    TranslateChar(c);
  }

  /** Translations of two pieces join into the translation of the whole. */
  lemma Joined(a: string, b: string, ra: string, rb: string)
    requires Translate(a) == ra && Translate(b) == rb
    ensures Translate(a + b) == ra + rb
  {
    TranslateConcat(a, b);
  }

  // мама

  lemma MaTranslated()
    ensures Translate("ма") == "ma"
  {
    KeyTranslated('м', "m");
    KeyTranslated('а', "a");
    Joined("м", "а", "m", "a");
  }

  lemma MamaTranslated()
    ensures Translate("мама") == "mama"
  {
    MaTranslated();
    Joined("ма", "ма", "ma", "ma");
  }

  // лев

  lemma LeTranslated()
    ensures Translate("ле") == "le"
  {
    KeyTranslated('л', "l");
    KeyTranslated('е', "e");
    Joined("л", "е", "l", "e");
  }

  lemma LevTranslated()
    ensures Translate("лев") == "leв"
  {
    LeTranslated();
    Passes('в');
    Joined("ле", "в", "le", "в");
  }

  // мальва

  lemma MalTranslated()
    ensures Translate("мал") == "mal"
  {
    MaTranslated();
    KeyTranslated('л', "l");
    Joined("ма", "л", "ma", "l");
  }

  lemma SoftVeTranslated()
    ensures Translate("ьв") == "ьв"
  {
    Passes('ь');
    Passes('в');
    Joined("ь", "в", "ь", "в");
  }

  lemma SoftVaTranslated()
    ensures Translate("ьва") == "ьвa"
  {
    SoftVeTranslated();
    KeyTranslated('а', "a");
    Joined("ьв", "а", "ьв", "a");
  }

  lemma MalvaTranslated()
    ensures Translate("мальва") == "malьвa"
  {
    MalTranslated();
    SoftVaTranslated();
    MalvaSplits();
    Joined("мал", "ьва", "mal", "ьвa");
  }

  lemma MalvaSplits()
    ensures "мал" + "ьва" == "мальва" && "mal" + "ьвa" == "malьвa"
  {
  }

  // йогурт

  lemma OhTranslated()
    ensures Translate("ог") == "oh"
  {
    KeyTranslated('о', "o");
    KeyTranslated('г', "h");
    Joined("о", "г", "o", "h");
  }

  lemma YogTranslated()
    ensures Translate("йог") == "йoh"
  {
    Passes('й');
    OhTranslated();
    Joined("й", "ог", "й", "oh");
  }

  lemma UrTranslated()
    ensures Translate("ур") == "ur"
  {
    KeyTranslated('у', "u");
    KeyTranslated('р', "r");
    Joined("у", "р", "u", "r");
  }

  lemma UrtTranslated()
    ensures Translate("урт") == "urt"
  {
    UrTranslated();
    KeyTranslated('т', "t");
    Joined("ур", "т", "ur", "t");
  }

  lemma YogurtTranslated()
    ensures Translate("йогурт") == "йohurt"
  {
    YogTranslated();
    UrtTranslated();
    YogurtSplits();
    Joined("йог", "урт", "йoh", "urt");
  }

  lemma YogurtSplits()
    ensures "йог" + "урт" == "йогурт" && "йoh" + "urt" == "йohurt"
  {
  }

  // жж

  lemma ZhzhTranslated()
    ensures Translate("жж") == "жж"
  {
    Passes('ж');
    Joined("ж", "ж", "ж", "ж");
  }
}
